=== FILE: README.md ===
# Mapcrafter configuration core in Dafny

This is a verified model of the configuration core of Mapcrafter, a renderer for Minecraft worlds. The model covers:

- parsing a configuration file into a global world template, a global map template, the named `[world:…]` sections and the ordered `[map:…]` sections;
- validating every section, with diagnostics collected per section;
- the run-time helper that keeps, for each map, the render behaviour (skip, auto, force) of each of the four rotations;
- the helper's zoom levels and the rotations used per world;
- the JavaScript settings the helper writes for the web template.

Modules:

- `Validation`: diagnostics (`Message`, `ValidationList`, `ValidationMap`), `isValidationValid`, and the `Field<T>` holder with `load`, `setDefault`, `setValue` and `require`.
- `Text`: whitespace tokenising as done by `operator>>` on a stringstream, trimming, decimal text of integers, and the integer and boolean conversions.
- `Rotation`: rotation names, `stringToRotation`, the rotation-token loop of `MapSection::parse`, and `rotationsToString`.
- `Sections`: `WorldSection::parse` and `MapSection::parse`, as functions on section values.
- `ConfigFile`: `MapcrafterConfigFile::parse` as the spec function `ParseSpec`, and the class `MapcrafterConfigFile`. The class's `Parse` method is proved equal to `ParseSpec`, and the class also has `hasMap` and `getMap`.
- `RenderBehavior`: `nextRenderBehaviorSplit`, plus spec functions for `setRenderBehaviors` and `parseRenderBehaviors` over a behaviour table.
- `ConfigHelper`: the class `MapcrafterConfigHelper`. Its methods are proved against the functions above.

The file system is not modelled. It reaches the model through an `Env` value, which supplies:

- `is_directory`;
- making a path absolute;
- `parent_path`;
- the file name of a path;
- the texture and template directories found by the installation search.

The INI reader is also outside the model. A configuration file arrives already read, as a `LoadedFile`. It is either a load failure with its message, or a root section plus the sections in file order.

## Model

| member | source | states |
|---|---|---|
| Sections.ParseWorld | src/config/mapcrafter_config.cpp:28-41 | A present `input_dir` becomes the absolute path. An absent one keeps the inherited value. Diagnostics are only appended. The result is true iff the incoming list was valid, a given `input_dir` is an existing directory, and a non-global section has an input directory, its own or inherited. |
| Sections.ParseMap | src/config/mapcrafter_config.cpp:43-93 | Sets the short name and the long name, which defaults to the short name. Loads `world`, `rotations` (default top-left), `rendermode` (default normal) and `texture_size` (default 12). `texture_dir` is the given path made absolute, else the found directory, else the inherited value. The four flags take the defaults false, true, true, true unless given or inherited, and a flag value or a `texture_size` that does not parse keeps the inherited field. The rotation set is the template's set plus the tokens' rotations. The result is true iff every check of the section passes (texture directory, every rotation token known, rendermode one of four, texture size parses and is 1..32, the four flags parse, `world` present when not global). |
| Sections.LoadMapOptions | src/config/mapcrafter_config.cpp:49-86 | The options after `world`, in source order. texture_dir, rotations, rendermode, texture_size and the four flags each take the value their own step gives, with the found-directory fallback and the defaults. A `texture_size` that does not parse keeps the inherited field. Names and world are kept. Valid iff every one of those checks passes. |
| Sections.TextureDir | src/config/mapcrafter_config.cpp:49-57 | A given texture_dir is made absolute, and a path that is not a directory adds exactly one error. With no key, a found directory replaces even an inherited value. With neither, the field is unchanged, and a non-global section without a value gets exactly the "You have to specify a texture directory" error. Valid iff those checks pass. |
| Sections.LoadRotations | src/config/mapcrafter_config.cpp:59-71 | The field loads with default "top-left". The set grows by exactly the named rotations. The diagnostics gain exactly one "Invalid rotation '…'!" error per unknown word, in order. No error is raised iff every token is a rotation name. |
| Sections.RendermodeErrors | src/config/mapcrafter_config.cpp:73-77 | At most one error, and none iff the mode is normal, daylight, nightlight or cave. |
| Sections.TextureSizeErrors | src/config/mapcrafter_config.cpp:79-81 | At most one error, and none iff the size is between 1 and 32. |
| Sections.LoadTextureSize | src/config/mapcrafter_config.cpp:79-81 | An absent key gives the default 12 to a field not loaded before. A parseable key sets the value. An unparseable key keeps the field. The result is valid iff the key parses and the value is in 1..32. |
| Sections.LoadFlags | src/config/mapcrafter_config.cpp:83-86 | Each of the four boolean options takes its given value when that parses, keeps its field when it does not, and takes its default (false, true, true, true) when absent and never loaded. Valid iff each one present parses. |
| Rotation.StringToRotation | src/config/mapcrafter_config.cpp:65 | The result is -1 iff the token is not a name. Otherwise it is the index of that name. |
| Rotation.RotationErrorsShape | src/config/mapcrafter_config.cpp:64-70 | Only errors, at most one per token, and none iff every token is a rotation name. |
| Rotation.TokenRotationsMembers | src/config/mapcrafter_config.cpp:64-68 | A rotation is collected iff its long name occurs among the tokens. |
| Rotation.ParseRotationTokens | src/config/mapcrafter_config.cpp:59-71 | The token loop adds exactly the named rotations to the set. It appends exactly one error per unknown token, in token order. |
| Rotation.RotationsToString | src/config/mapcrafter_config.cpp:189-196 | The loop result equals the trimmed, space-separated names of the rotations 0..3 in the set, ascending. |
| Rotation.TrimSpaced | src/config/mapcrafter_config.cpp:194 | Trimming the space-prefixed list of names gives the names joined by single spaces. |
| Rotation.RotationsRoundTrip | src/config/mapcrafter_config.cpp:59-71 | Re-tokenising `rotationsToString(rs)` gives back the ascending names. Parsing them gives back `rs ∩ {0..3}` with no error. |
| Rotation.RotationExample | src/config/mapcrafter_config.cpp:64-70 | The option text "top-left bogus bottom-right" splits into its three tokens, which give {0, 2} and one "Invalid rotation 'bogus'!" error. |
| ConfigFile.FindSectionFirst | src/config/mapcrafter_config.cpp:124-140 | Finds the first section with this type and name, or None when there is none. |
| ConfigFile.UnknownWarningsValid | src/config/mapcrafter_config.cpp:144-150 | There are exactly as many entries as sections of unknown type, and each holds exactly the one "Unknown section type!" warning. |
| ConfigFile.ParseGeneral | src/config/mapcrafter_config.cpp:107-122 | `output_dir` is made absolute and is required. `template_dir` is the given path made absolute and checked, else the found directory, else the field as it was, which is then required. The general messages are valid iff those checks pass. |
| ConfigFile.WorldsFoldRegistered | src/config/mapcrafter_config.cpp:152-167 | Registration keeps every world registered before. It binds each new name to its first section. The log only grows. |
| ConfigFile.WorldsFoldOk | src/config/mapcrafter_config.cpp:152-167 | The world loop leaves the flag true iff it came in true, every world section parses, and no world name repeats or clashes. |
| ConfigFile.WorldsFoldEntry | src/config/mapcrafter_config.cpp:155-166 | A world section's entry holds its own diagnostics. It gets exactly one "already used" error iff its name was registered earlier. A duplicate leaves the dictionary unchanged and fails the parse. Otherwise the name is bound to the parsed section. |
| ConfigFile.MapsFoldEntry | src/config/mapcrafter_config.cpp:172-183 | A map section's entry holds its own diagnostics. It gets exactly one "already used" error iff its name was used before. A duplicate leaves the map list unchanged and fails the parse. Otherwise the parsed map is appended. |
| ConfigFile.MapsFoldRegistered | src/config/mapcrafter_config.cpp:169-184 | The maps seen before stay in front, unchanged. The names after the pass are exactly the old names plus the map-section names. New maps are appended in the order of their first sections (`InDeclarationOrder`). Names stay distinct. The first section of a name is kept, and a duplicate is not added. |
| ConfigFile.MapsFoldOk | src/config/mapcrafter_config.cpp:169-184 | The map loop leaves the flag true iff it came in true, every map section parses, and no map name repeats or clashes. |
| ConfigFile.MapsFoldRotations | src/config/mapcrafter_config.cpp:169-184 | Every registered map renders only rotations 0..3, given that the template does. |
| ConfigFile.ParseLoadFailed | src/config/mapcrafter_config.cpp:98-101 | An unreadable file gives false. One "Configuration file" entry holds the reader's message, and the state is unchanged. |
| ConfigFile.TemplateFailureStops | src/config/mapcrafter_config.cpp:124-140 | A global world or map template that fails returns false at once. No world or map is registered. After the "Configuration file" entry only global template entries follow, at most two, so no unknown-section, world or map entry is logged. |
| ConfigFile.GeneralOptionsOnlyReport | src/config/mapcrafter_config.cpp:105-122 | The general options (output_dir, template_dir) never change the returned flag or the registered sections, only the log. |
| ConfigFile.ParseOk | src/config/mapcrafter_config.cpp:95-187 | The parse returns true iff: the file was read; both templates parse; every world and map section parses; no world or map name is used twice or is already registered. |
| ConfigFile.ParseRegistered | src/config/mapcrafter_config.cpp:152-184 | Worlds and maps seen before are kept. Each new name is bound to the section that declared it first. Map names stay distinct and every map renders only rotations 0..3. |
| ConfigFile.ParseRegisteredNames | src/config/mapcrafter_config.cpp:152-184 | When both templates pass, the world names are exactly the old names plus the world-section names, and the map names exactly the old names plus the map-section names. New maps follow the old ones in the order of their first sections. When a template fails, no world or map is added. |
| ConfigFile.MapsFoldOrderPair | src/config/mapcrafter_config.cpp:169-184 | Of two new map names first declared at sections i < j, both are in the list and the first comes before the second. |
| ConfigFile.MapsFoldOrder | src/config/mapcrafter_config.cpp:169-184 | Every new map sits after the old maps, and new maps appear in the order of their first sections. |
| ConfigFile.GlobalMapRotations | src/config/mapcrafter_config.cpp:133-140 | The global map template keeps rotations within 0..3. |
| ConfigFile.FoldsIgnoreUnknown | src/config/mapcrafter_config.cpp:152-184 | Sections of unknown type do not affect world or map registration. |
| ConfigFile.FindIgnoresUnknown | src/config/mapcrafter_config.cpp:124-140 | Sections of unknown type do not affect which global template section is found. |
| ConfigFile.UnknownSectionsOnlyWarn | src/config/mapcrafter_config.cpp:144-150 | Unknown sections only add warnings. Removing them gives the same flag and the same state. |
| ConfigFile.MapcrafterConfigFile.Parse | src/config/mapcrafter_config.cpp:95-187 | The method leaves the object in the state `ParseSpec` describes, with that log and flag. |
| ConfigFile.MapcrafterConfigFile.RegisterSections | src/config/mapcrafter_config.cpp:142-186 | The three passes after the templates leave the worlds, the maps, the log and the flag that `RegisterSpec` describes: unknown-section warnings first, then the world pass, then the map pass. |
| ConfigFile.MapcrafterConfigFile.WarnUnknownSections | src/config/mapcrafter_config.cpp:144-150 | The loop appends one warning entry per unknown section, in file order. |
| ConfigFile.MapcrafterConfigFile.RegisterWorlds | src/config/mapcrafter_config.cpp:152-167 | The world loop registers worlds as the world fold does. |
| ConfigFile.MapcrafterConfigFile.RegisterMaps | src/config/mapcrafter_config.cpp:169-184 | The map loop registers maps as the map fold does. |
| ConfigFile.MapcrafterConfigFile.HasMap | src/config/mapcrafter_config.cpp:242-247 | True iff some registered map has this short name. |
| ConfigFile.MapcrafterConfigFile.GetMap | src/config/mapcrafter_config.cpp:249-254 | The first map with this short name. None, in place of the out_of_range exception, iff there is none. |
| RenderBehavior.NextRenderBehaviorSplit | src/config/mapcrafter_config.cpp:354-380 | False iff the text is empty, and then all outputs are empty. Otherwise the rest is shorter than the text. |
| RenderBehavior.SplitShape | src/config/mapcrafter_config.cpp:354-380 | The item runs up to the first comma. The map part has no comma or colon, the rotation no comma, and map ":" rotation "," rest reassembles the input. |
| RenderBehavior.ApplyItem | src/config/mapcrafter_config.cpp:385-407 | One item yields no warning iff its map exists and its rotation, when given, is a short name the map renders. It yields at most one warning. |
| RenderBehavior.ApplyItemSlots | src/config/mapcrafter_config.cpp:385-407 | A valid item sets its one slot, or all four when no rotation is given. Nothing else changes. |
| RenderBehavior.ApplySlots | src/config/mapcrafter_config.cpp:382-408 | After a list, a slot holds the behaviour iff some valid item of the list names it. Otherwise the slot is as before. No map is dropped. There are no warnings iff every item is valid. |
| RenderBehavior.SkipAllMapsSlots | src/config/mapcrafter_config.cpp:413-417 | skip_all sets all four slots of every configured map to skip and leaves other entries alone. |
| RenderBehavior.SkipAllMapsKeys | src/config/mapcrafter_config.cpp:413-417 | After skip_all, a map has slots iff it had them before or it is a configured map. |
| RenderBehavior.BehaviorPrecedence | src/config/mapcrafter_config.cpp:410-420 | Each slot ends as: force if the force list names it; else auto if the auto list does; else skip if skip_all or the skip list does; else unchanged. |
| RenderBehavior.ForceCompletes | src/config/mapcrafter_config.cpp:410-420 | A map whose every rendered rotation is named in the force list is completely forced. |
| RenderBehavior.SkipAllCompletes | src/config/mapcrafter_config.cpp:410-420 | With skip_all and empty lists, every configured map is completely skipped. |
| RenderBehavior.ExampleShortRotation | src/config/mapcrafter_config.cpp:382-408 | "M:tl" in the force list forces rotation 0 of map M, with no warning. |
| RenderBehavior.ExampleNumericRotation | src/config/mapcrafter_config.cpp:392-396 | "M:0" is an unknown rotation: one warning, and the table is unchanged. |
| ConfigHelper.RotationListDigits | src/config/mapcrafter_config.cpp:288-290 | The rotation list has only digits and commas, two characters per rotation. |
| ConfigHelper.TemplateJsDefined | src/config/mapcrafter_config.cpp:274-296 | The script is produced iff every map's world is a registered world. Otherwise getWorld throws. |
| ConfigHelper.AddUsedMonotone | src/config/mapcrafter_config.cpp:303-306 | Recording rotations is a monotone union. The world gains exactly the given rotations, other worlds are unchanged, and an empty set creates no entry. |
| ConfigHelper.MapcrafterConfigHelper.constructor | src/config/mapcrafter_config.cpp:259-269 | Every configured map starts with auto in all four slots. Every world starts at zoom level 0. There are no map zoom levels and no used rotations. |
| ConfigHelper.MapcrafterConfigHelper.GenerateTemplateJavascript | src/config/mapcrafter_config.cpp:274-296 | Writes one entry per map, in order. Each entry gives the name, the world's directory name, the texture size, the tile size 32·size, the map's zoom level and the rotations ascending. None where getWorld would throw. |
| ConfigHelper.MapcrafterConfigHelper.RotationListText | src/config/mapcrafter_config.cpp:287-290 | The loop writes each rotation of the map in ascending order, each followed by a comma. |
| ConfigHelper.MapcrafterConfigHelper.GetUsedRotations | src/config/mapcrafter_config.cpp:299-301 | Defined iff rotations were recorded for the world. |
| ConfigHelper.MapcrafterConfigHelper.SetUsedRotations | src/config/mapcrafter_config.cpp:303-306 | The table becomes the monotone union `AddUsed`. `Valid()` holds before and after. |
| ConfigHelper.MapcrafterConfigHelper.GetWorldZoomlevel | src/config/mapcrafter_config.cpp:308-310 | Defined iff the world has a zoom level. |
| ConfigHelper.MapcrafterConfigHelper.GetMapZoomlevel | src/config/mapcrafter_config.cpp:312-316 | A map without a zoom level reads 0. |
| ConfigHelper.MapcrafterConfigHelper.SetWorldZoomlevel | src/config/mapcrafter_config.cpp:318-320 | Afterwards this world reads the new level and every other world reads as before. `Valid()` holds before and after. |
| ConfigHelper.MapcrafterConfigHelper.SetMapZoomlevel | src/config/mapcrafter_config.cpp:322-324 | Afterwards this map reads the new level and every other map reads as before. `Valid()` holds before and after. |
| ConfigHelper.MapcrafterConfigHelper.GetRenderBehavior | src/config/mapcrafter_config.cpp:326-328 | Defined iff the map has slots and the rotation is 0..3. |
| ConfigHelper.MapcrafterConfigHelper.SetRenderBehavior | src/config/mapcrafter_config.cpp:330-336 | Rotation -1 sets all four slots, another rotation only its own. A map without slots gets them, the rest skip. Every other map reads as before. `Valid()` holds before and after. |
| ConfigHelper.MapcrafterConfigHelper.IsCompleteRenderSkip | src/config/mapcrafter_config.cpp:338-344 | True iff every rotation the map renders is skipped. None for an unknown map. |
| ConfigHelper.MapcrafterConfigHelper.IsCompleteRenderForce | src/config/mapcrafter_config.cpp:346-352 | True iff every rotation the map renders is forced. None for an unknown map. |
| ConfigHelper.MapcrafterConfigHelper.ApplyOne | src/config/mapcrafter_config.cpp:385-407 | One loop iteration of setRenderBehaviors changes the table and warns as `ApplyItem` says. `Valid()` holds before and after. |
| ConfigHelper.MapcrafterConfigHelper.SetRenderBehaviors | src/config/mapcrafter_config.cpp:382-408 | The loop leaves the table and warnings `ApplySpec` describes, whose slots `ApplySlots` characterises. `Valid()` holds before and after. |
| ConfigHelper.MapcrafterConfigHelper.ParseRenderBehaviors | src/config/mapcrafter_config.cpp:410-420 | The table and warnings match `ParseRenderBehaviorsSpec`, whose outcome per slot `BehaviorPrecedence` gives. `Valid()` holds before and after. |

## Left out

- The bodies of several helpers come from headers and utility files that are not part of this model. They are modelled as follows.
  - `Field<T>::load` without a default: an absent key leaves the field as it is and returns false. So a `texture_dir` or `template_dir` that is not given falls through to the found directory, which then replaces an inherited value.
  - `Field<T>::load` with a default: an absent key gives the default to a field never loaded and returns true. A key that does not parse raises "Invalid value for …" and returns false.
  - `Field<T>::setValue` marks the field loaded.
  - `util::as<int>` accepts an optional minus sign followed by digits.
  - `util::as<bool>` accepts true, 1, false and 0.
  - `ROTATION_NAMES` are top-left, top-right, bottom-right, bottom-left. `ROTATION_NAMES_SHORT` are tl, tr, br, bl.
  - The render behaviours are ordered skip, auto, force, so a slot created by `operator[]` reads skip.
  - The constructor of `MapcrafterConfigFile` sets the world and map templates global.
- Text.ParseInt: digit strings of any length parse, with no 32-bit limit. Stream extraction into an `int` fails on a value outside the 32-bit range, so C++ reports "Invalid value for 'texture_size'" where the model reports the 1..32 range error. The section is invalid either way.
- The INI reader (`ConfigFile::loadFile`, `getSections`) is not part of this model. The file comes in parsed.
- File-system queries and the installation search for texture and template directories come from the `Env` parameter. Path normalisation is whatever `Env.absolute` returns.
- `dumpWorldSection`, `dumpMapSection` and `MapcrafterConfigFile::dump` are left out. They only write to a stream.
- The overlay configuration in `overlay.h` is not part of this model.
- ConfigHelper.MapcrafterConfigHelper.SetRenderBehaviors: the warnings printed to standard output are returned as a sequence of strings, in print order.
- ConfigHelper.MapcrafterConfigHelper.constructor: the helper holds a reference to the parsed configuration, where the C++ class keeps a copy. Nothing in the helper changes the configuration, so the two cannot be told apart.
- ConfigHelper.MapcrafterConfigHelper.GetRenderBehavior: `at()` throwing `out_of_range` is modelled as None. So are `getWorldZoomlevel`, `getUsedRotations`, the getWorld lookup in `generateTemplateJavascript`, and `getMap` in the completeness checks.
- ConfigHelper.MapcrafterConfigHelper.GenerateTemplateJavascript: the rotation list is written by scanning 0..3, which is `std::set` order for the maps a parse produces. Those maps render only rotations 0..3, as `ParseRegistered` shows, and the method requires it through `Valid()`.
- ConfigHelper.MapcrafterConfigHelper.IsCompleteRenderSkip: requires `Valid()`, meaning every map has slots and renders only rotations within 0..3. The constructor establishes it for a parsed configuration, and every method that changes the helper keeps it. On other tables the C++ code would throw from `at()`.
- ConfigHelper.MapcrafterConfigHelper.IsCompleteRenderForce: requires `Valid()`, as IsCompleteRenderSkip does.
- ConfigHelper.MapcrafterConfigHelper.SetUsedRotations: requires `Valid()`, the helper's invariant, which the C++ method does not check. It holds from the constructor on, because every method that changes the helper keeps it.
- ConfigHelper.MapcrafterConfigHelper.SetWorldZoomlevel: requires `Valid()`, the helper's invariant, which the C++ method does not check. It holds from the constructor on, because every method that changes the helper keeps it.
- ConfigHelper.MapcrafterConfigHelper.SetMapZoomlevel: requires `Valid()`, the helper's invariant, which the C++ method does not check. It holds from the constructor on, because every method that changes the helper keeps it.
- ConfigHelper.MapcrafterConfigHelper.SetRenderBehavior: requires a rotation in -1..3. In C++ any other index reaches outside the four slots of the map's entry, which is undefined behaviour. Every caller passes -1 or a result of `stringToRotation`.
- ConfigHelper.MapcrafterConfigHelper.SetRenderBehavior: requires `Valid()`, the helper's invariant, which the C++ method does not check. It holds from the constructor on, because every method that changes the helper keeps it.
- ConfigHelper.MapcrafterConfigHelper.ApplyOne: requires `Valid()`, the helper's invariant, which the C++ method does not check. It holds from the constructor on, because every method that changes the helper keeps it.
- ConfigHelper.MapcrafterConfigHelper.SetRenderBehaviors: requires `Valid()`, the helper's invariant, which the C++ method does not check. It holds from the constructor on, because every method that changes the helper keeps it.
- ConfigHelper.MapcrafterConfigHelper.ParseRenderBehaviors: requires `Valid()`, the helper's invariant, which the C++ method does not check. It holds from the constructor on, because every method that changes the helper keeps it.
- ConfigHelper.MapcrafterConfigHelper.constructor: requires that every map renders only rotations within 0..3. A parsed configuration guarantees this (`ParseRegistered`).
- In three places the code is less strict or less general than one might expect, and the model follows the code:
  - One might expect a render-behaviour item such as `M:0` to name rotation 0 of map M. The code rejects it with an "Unknown rotation" warning. Only the short names tl, tr, br and bl are accepted (`ExampleNumericRotation`).
  - One might expect every map's `world` to name a declared world. The parse does not check this. A dangling reference only surfaces when the template script is written (`TemplateJsDefined`).
  - One might expect a missing `output_dir` to fail the parse. Errors among the general options (`output_dir`, `template_dir`) are reported but do not make the parse return false (`GeneralOptionsOnlyReport`).
- Integers are unbounded. `texture_size` is range-checked before any product is formed, so `32 * size` cannot overflow for an accepted configuration.

=== FILE: config_file.dfy ===
/**
 * MapcrafterConfigFile: parsing a whole configuration file. The general
 * options live in the root section, `[global:worlds]` and `[global:maps]` are
 * templates that every world and map section starts from, and the world and
 * map sections are registered by name, worlds in a dictionary and maps in
 * declaration order. The parse keeps going after errors and reports every
 * diagnostic under a label.
 */
module ConfigFile {
  import opened Validation
  import opened Text
  import opened Rotation
  import opened Sections

  /** What the INI reader delivers: a failure message, or the root entries and the sections in file order. */
  datatype LoadedFile =
    | LoadFailed(message: Message)
    | LoadedOk(root: Entries, sections: seq<RawSection>)

  const CONFIG_FILE_LABEL := "Configuration file"
  const GLOBAL_WORLD_LABEL := "Global world configuration"
  const GLOBAL_MAP_LABEL := "Global map configuration"
  const OUTPUT_DIR_REQUIRED := "You have to specify an output directory ('output_dir')!"
  const TEMPLATE_DIR_REQUIRED := "You have to specify a template directory ('template_dir')!"

  // ------------------------------------------------------------ sections

  /** ConfigFile::hasSection / getSection: the first section of that type and name. */
  function FindSection(secs: seq<RawSection>, stype: string, name: string): Option<RawSection> {
    if secs == [] then None
    else
      match FindSection(secs[..|secs| - 1], stype, name)
      case Some(s) => Some(s)
      case None =>
        var last := secs[|secs| - 1];
        if last.stype == stype && last.name == name then Some(last) else None
  }

  /** The section at i has this type and name. */
  predicate SectionAt(secs: seq<RawSection>, i: int, stype: string, name: string)
    requires 0 <= i < |secs|
  {
    secs[i].stype == stype && secs[i].name == name
  }

  /** FindSection finds nothing iff no section matches, and otherwise the first one that does. */
  lemma {:induction false} FindSectionFirst(secs: seq<RawSection>, stype: string, name: string)
    ensures FindSection(secs, stype, name).None? <==>
      forall i :: 0 <= i < |secs| ==> !SectionAt(secs, i, stype, name)
    ensures FindSection(secs, stype, name).Some? ==>
      exists i :: && 0 <= i < |secs| && secs[i] == FindSection(secs, stype, name).value
                  && SectionAt(secs, i, stype, name)
                  && forall j :: 0 <= j < i ==> !SectionAt(secs, j, stype, name)
  {
    if secs != [] {
      var init := secs[..|secs| - 1];
      FindSectionFirst(init, stype, name);
      assert forall i :: 0 <= i < |init| ==> init[i] == secs[i];
      assert forall i :: 0 <= i < |init| ==> (SectionAt(init, i, stype, name) <==> SectionAt(secs, i, stype, name));
      match FindSection(init, stype, name)
      case Some(s) =>
        var i :| && 0 <= i < |init| && init[i] == s && SectionAt(init, i, stype, name)
                 && forall j :: 0 <= j < i ==> !SectionAt(init, j, stype, name);
        assert secs[i] == s && SectionAt(secs, i, stype, name);
      case None =>
        if SectionAt(secs, |secs| - 1, stype, name) {
          assert secs[|secs| - 1] == FindSection(secs, stype, name).value;
        }
    }
  }

  /** A section whose type the parser knows: world, map, or one of the two templates. */
  predicate IsKnown(s: RawSection) {
    s.stype == "world" || s.stype == "map" || s.NameType() == "global:worlds" || s.NameType() == "global:maps"
  }

  const WITH_TYPE := "' with type '"

  function UnknownLabel(s: RawSection): string {
    "Section '" + s.name + WITH_TYPE + s.stype + "'"
  }

  const UNKNOWN_SECTION := "Unknown section type!"

  /** One warning-only entry per section of an unknown type, in file order. */
  function UnknownWarnings(secs: seq<RawSection>): seq<(string, ValidationList)> {
    if secs == [] then []
    else
      var last := secs[|secs| - 1];
      UnknownWarnings(secs[..|secs| - 1]) +
        (if IsKnown(last) then [] else [(UnknownLabel(last), [WarningMessage(UNKNOWN_SECTION)])])
  }

  /**
   * Every section of an unknown type gets exactly one entry, and that entry holds
   * the one "Unknown section type!" warning and no error.
   */
  lemma {:induction false} UnknownWarningsValid(secs: seq<RawSection>)
    ensures |UnknownWarnings(secs)| == |secs| - |KnownSections(secs)|
    ensures forall i :: 0 <= i < |UnknownWarnings(secs)| ==>
      UnknownWarnings(secs)[i].1 == [WarningMessage(UNKNOWN_SECTION)]
    ensures forall i :: 0 <= i < |UnknownWarnings(secs)| ==> IsValidationValid(UnknownWarnings(secs)[i].1)
  {
    if secs != [] {
      var init := secs[..|secs| - 1];
      UnknownWarningsValid(init);
      var last := secs[|secs| - 1];
      if IsKnown(last) {
        assert UnknownWarnings(secs) == UnknownWarnings(init);
        assert |KnownSections(secs)| == |KnownSections(init)| + 1;
      } else {
        assert UnknownWarnings(secs) == UnknownWarnings(init) + [(UnknownLabel(last), [WarningMessage(UNKNOWN_SECTION)])];
        assert KnownSections(secs) == KnownSections(init);
      }
    }
  }

  /** The sections with the unknown ones removed, order kept. */
  function KnownSections(secs: seq<RawSection>): (ks: seq<RawSection>)
    ensures forall i :: 0 <= i < |ks| ==> IsKnown(ks[i])
  {
    if secs == [] then []
    else
      var last := secs[|secs| - 1];
      KnownSections(secs[..|secs| - 1]) + (if IsKnown(last) then [last] else [])
  }

  // ------------------------------------------------------- general options

  datatype General = General(outputDir: Field<string>, templateDir: Field<string>, messages: ValidationList)

  /**
   * The root section: output_dir is made absolute whenever the field is loaded
   * and is required; template_dir is taken from the file (made absolute, must be
   * a directory), else from auto-discovery, else required.
   */
  function ParseGeneral(outputDir: Field<string>, templateDir: Field<string>, root: Entries,
                        configDir: string, env: Env): (g: General)
    ensures "output_dir" in root ==> g.outputDir == Field(env.absolute(root["output_dir"], configDir), true)
    ensures "output_dir" !in root && outputDir.loaded ==>
      g.outputDir == Field(env.absolute(outputDir.value, configDir), true)
    ensures "output_dir" !in root && !outputDir.loaded ==> g.outputDir == outputDir
    ensures "template_dir" in root ==> g.templateDir == Field(env.absolute(root["template_dir"], configDir), true)
    ensures "template_dir" !in root && env.foundTemplateDir != "" ==> g.templateDir == Field(env.foundTemplateDir, true)
    ensures "template_dir" !in root && env.foundTemplateDir == "" ==> g.templateDir == templateDir
    ensures IsValidationValid(g.messages) <==>
      && g.outputDir.loaded
      && ("template_dir" in root ==> env.isDirectory(g.templateDir.value))
      && g.templateDir.loaded
  {
    var out0 := LoadString(outputDir, root, "output_dir");
    var out1 := if out0.loaded then SetValue(out0, env.absolute(out0.value, configDir)) else out0;
    var v1 := Require(out1, [], OUTPUT_DIR_REQUIRED);
    var td := TemplateDir(templateDir, root, configDir, env, v1);
    General(out1, td.field, td.validation)
  }

  /** The template_dir step of the general options. */
  function TemplateDir(f: Field<string>, root: Entries, configDir: string, env: Env,
                       v: ValidationList): (r: Loaded<string>)
    ensures Extends(v, r.validation)
    ensures "template_dir" in root ==> r.field == Field(env.absolute(root["template_dir"], configDir), true)
    ensures "template_dir" !in root && env.foundTemplateDir != "" ==> r.field == Field(env.foundTemplateDir, true)
    ensures "template_dir" !in root && env.foundTemplateDir == "" ==> r.field == f
    ensures IsValidationValid(r.validation) <==>
      && IsValidationValid(v)
      && ("template_dir" in root ==> env.isDirectory(r.field.value))
      && r.field.loaded
  {
    AppendError(v, NotADirectory("template_dir",
      if "template_dir" in root then env.absolute(root["template_dir"], configDir) else ""));
    if "template_dir" in root then
      var path := env.absolute(root["template_dir"], configDir);
      Loaded(Field(path, true), if env.isDirectory(path) then v else v + [NotADirectory("template_dir", path)], true)
    else if env.foundTemplateDir != "" then
      Loaded(SetValue(f, env.foundTemplateDir), v, true)
    else
      Loaded(f, Require(f, v, TEMPLATE_DIR_REQUIRED), f.loaded)
  }

  // ---------------------------------------------------------------- worlds

  const WORLD_SECTION := "World section '"
  const WORLD_NAME := "World name '"
  const ALREADY_USED := "' already used!"

  function WorldLabel(name: string): string { WORLD_SECTION + name + "'" }

  function WorldNameUsed(name: string): Message { ErrorMessage(WORLD_NAME + name + ALREADY_USED) }

  /** How a world section is parsed: on a copy of the template with the global flag cleared. */
  function WorldParser(template: WorldSection, configDir: string, env: Env): RawSection -> WorldParse {
    s => ParseWorld(template.(isGlobal := false), s, configDir, env, [])
  }

  /** The world dictionary, the diagnostics so far and the running success flag. */
  datatype WorldRegistry = WorldRegistry(worlds: map<string, WorldSection>, validation: ValidationMap, ok: bool)

  /**
   * One world section: it is always parsed and always gets one entry; a name
   * already registered adds one error to that entry, fails the parse and leaves
   * the dictionary as it was.
   */
  function WorldStep(parse: RawSection -> WorldParse, s: RawSection, reg: WorldRegistry): WorldRegistry {
    var p := parse(s);
    if s.name in reg.worlds then
      WorldRegistry(reg.worlds, reg.validation + [(WorldLabel(s.name), p.validation + [WorldNameUsed(s.name)])], false)
    else
      WorldRegistry(reg.worlds[s.name := p.section], reg.validation + [(WorldLabel(s.name), p.validation)],
                    p.valid && reg.ok)
  }

  /** The pass over all sections that registers the world sections, in file order. */
  function WorldsFold(parse: RawSection -> WorldParse, secs: seq<RawSection>, init: WorldRegistry): WorldRegistry {
    if secs == [] then init
    else
      var prev := WorldsFold(parse, secs[..|secs| - 1], init);
      var s := secs[|secs| - 1];
      if s.stype == "world" then WorldStep(parse, s, prev) else prev
  }

  /** Section i is a world section named n. */
  predicate WorldAt(secs: seq<RawSection>, i: int, n: string) {
    0 <= i < |secs| && secs[i].stype == "world" && secs[i].name == n
  }

  /** Section i is the first world section named n. */
  predicate FirstWorldAt(secs: seq<RawSection>, i: int, n: string) {
    WorldAt(secs, i, n) && forall j :: 0 <= j < i ==> !WorldAt(secs, j, n)
  }

  /**
   * The dictionary after the pass: its names are the names it had plus the names
   * of the world sections; a name it had keeps its world; a new name is bound to
   * its first world section; one entry is added per world section.
   */
  lemma {:induction false} WorldsFoldRegistered(parse: RawSection -> WorldParse, secs: seq<RawSection>,
                                                init: WorldRegistry)
    ensures var r := WorldsFold(parse, secs, init);
      && (forall n :: n in r.worlds <==> n in init.worlds || exists i :: WorldAt(secs, i, n))
      && (forall n :: n in init.worlds ==> r.worlds[n] == init.worlds[n])
      && (forall n, i :: n !in init.worlds && FirstWorldAt(secs, i, n) ==> r.worlds[n] == parse(secs[i]).section)
      && init.validation <= r.validation
  {
    if secs != [] {
      var init', s := secs[..|secs| - 1], secs[|secs| - 1];
      WorldsFoldRegistered(parse, init', init);
      assert forall i, n :: 0 <= i < |init'| ==> (WorldAt(init', i, n) <==> WorldAt(secs, i, n));
      var prev := WorldsFold(parse, init', init);
      forall n ensures n in WorldsFold(parse, secs, init).worlds <==> n in init.worlds || exists i :: WorldAt(secs, i, n) {
        if exists i :: WorldAt(secs, i, n) {
          var i :| WorldAt(secs, i, n);
          if i < |init'| {
            assert WorldAt(init', i, n);
          }
        }
        if WorldAt(secs, |init'|, n) {
          assert n in WorldsFold(parse, secs, init).worlds;
        }
      }
      forall n, i | n !in init.worlds && FirstWorldAt(secs, i, n)
        ensures WorldsFold(parse, secs, init).worlds[n] == parse(secs[i]).section
      {
        if i < |init'| {
          assert FirstWorldAt(init', i, n);
        } else {
          assert n !in prev.worlds;
        }
      }
    }
  }

  /** Every world section parses. */
  predicate WorldSectionsParse(parse: RawSection -> WorldParse, secs: seq<RawSection>) {
    forall i :: 0 <= i < |secs| && secs[i].stype == "world" ==> parse(secs[i]).valid
  }

  /** No two world sections share a name. */
  predicate WorldNamesDistinct(secs: seq<RawSection>) {
    forall i, j :: 0 <= i < j < |secs| && secs[i].stype == "world" && secs[j].stype == "world" ==>
      secs[i].name != secs[j].name
  }

  /** No world section reuses a name already in the dictionary. */
  predicate WorldNamesFresh(secs: seq<RawSection>, worlds: map<string, WorldSection>) {
    forall i :: 0 <= i < |secs| && secs[i].stype == "world" ==> secs[i].name !in worlds
  }

  /** Each world condition over a list is the condition over all but the last section and over the last. */
  lemma WorldConditionsSnoc(parse: RawSection -> WorldParse, secs: seq<RawSection>, worlds: map<string, WorldSection>)
    requires secs != []
    ensures var init, s := secs[..|secs| - 1], secs[|secs| - 1];
      && (WorldSectionsParse(parse, secs) <==>
            WorldSectionsParse(parse, init) && (s.stype == "world" ==> parse(s).valid))
      && (WorldNamesDistinct(secs) <==>
            WorldNamesDistinct(init) && (s.stype == "world" ==> forall j :: 0 <= j < |init| ==> !WorldAt(init, j, s.name)))
      && (WorldNamesFresh(secs, worlds) <==>
            WorldNamesFresh(init, worlds) && (s.stype == "world" ==> s.name !in worlds))
  {
    var init, s := secs[..|secs| - 1], secs[|secs| - 1];
    assert forall i :: 0 <= i < |init| ==> init[i] == secs[i];
    if WorldNamesDistinct(init) && (s.stype == "world" ==> forall j :: 0 <= j < |init| ==> !WorldAt(init, j, s.name)) {
      forall i, j | 0 <= i < j < |secs| && secs[i].stype == "world" && secs[j].stype == "world"
        ensures secs[i].name != secs[j].name
      {
        if j == |init| {
          assert !WorldAt(init, i, s.name);
        }
      }
    }
  }

  /**
   * The success flag after the pass: it stays true iff it was true, every world
   * section parses, no two world sections share a name and none reuses a name
   * the dictionary already had.
   */
  lemma {:induction false} WorldsFoldOk(parse: RawSection -> WorldParse, secs: seq<RawSection>, init: WorldRegistry)
    ensures WorldsFold(parse, secs, init).ok <==>
      init.ok && WorldSectionsParse(parse, secs) && WorldNamesDistinct(secs) && WorldNamesFresh(secs, init.worlds)
  {
    if secs != [] {
      var init', s := secs[..|secs| - 1], secs[|secs| - 1];
      WorldsFoldOk(parse, init', init);
      WorldsFoldRegistered(parse, init', init);
      WorldConditionsSnoc(parse, secs, init.worlds);
      var prev := WorldsFold(parse, init', init);
      if s.stype == "world" {
        assert s.name in prev.worlds <==> s.name in init.worlds || exists j :: WorldAt(init', j, s.name);
        assert (exists j :: WorldAt(init', j, s.name)) <==> !(forall j :: 0 <= j < |init'| ==> !WorldAt(init', j, s.name));
      }
    }
  }

  // ------------------------------------------------------------------ maps

  const MAP_SECTION := "Map section '"
  const MAP_NAME := "Map name '"

  function MapLabel(name: string): string { MAP_SECTION + name + "'" }

  function MapNameUsed(name: string): Message { ErrorMessage(MAP_NAME + name + ALREADY_USED) }

  /** hasMap on a list of maps: some map has this short name. */
  predicate HasMapIn(maps: seq<MapSection>, name: string) {
    exists i :: 0 <= i < |maps| && maps[i].nameShort == name
  }

  /** getMap on a list of maps: the position of the first map with this short name. */
  function MapIndex(maps: seq<MapSection>, name: string): (r: Option<nat>)
    ensures r.None? <==> !HasMapIn(maps, name)
    ensures r.Some? ==> r.value < |maps| && maps[r.value].nameShort == name
    ensures r.Some? ==> forall j :: 0 <= j < r.value ==> maps[j].nameShort != name
  {
    if maps == [] then None
    else if maps[0].nameShort == name then Some(0)
    else match MapIndex(maps[1..], name)
      case None =>
        assert forall i :: 0 < i < |maps| ==> maps[i] == maps[1..][i - 1];
        None
      case Some(k) => Some(k + 1)
  }

  /** No two maps share a short name. */
  predicate DistinctNames(maps: seq<MapSection>) {
    forall i, j :: 0 <= i < j < |maps| ==> maps[i].nameShort != maps[j].nameShort
  }

  /** How a map section is parsed: on a copy of the template with the global flag cleared. */
  function MapParser(template: MapSection, configDir: string, env: Env): RawSection -> MapParse {
    s => ParseMap(template.(isGlobal := false), s, configDir, env, [])
  }

  /** A parsed map section is named after its section; its rotations are in 0..3 when the template's are. */
  lemma MapParserFacts(template: MapSection, configDir: string, env: Env)
    ensures forall s :: MapParser(template, configDir, env)(s).section.nameShort == s.name
    ensures ValidRotations(template.rotationsSet) ==>
      forall s :: ValidRotations(MapParser(template, configDir, env)(s).section.rotationsSet)
  {
    forall s | ValidRotations(template.rotationsSet)
      ensures ValidRotations(MapParser(template, configDir, env)(s).section.rotationsSet)
    {
      var p := ParseMap(template.(isGlobal := false), s, configDir, env, []);
      TokenRotationsRange(Words(p.section.rotations.value));
    }
  }

  datatype MapRegistry = MapRegistry(maps: seq<MapSection>, validation: ValidationMap, ok: bool)

  /** One map section: like a world section, but a new map is appended to the list. */
  function MapStep(parse: RawSection -> MapParse, s: RawSection, reg: MapRegistry): MapRegistry {
    var p := parse(s);
    if HasMapIn(reg.maps, s.name) then
      MapRegistry(reg.maps, reg.validation + [(MapLabel(s.name), p.validation + [MapNameUsed(s.name)])], false)
    else
      MapRegistry(reg.maps + [p.section], reg.validation + [(MapLabel(s.name), p.validation)], p.valid && reg.ok)
  }

  /** The pass over all sections that registers the map sections, in file order. */
  function MapsFold(parse: RawSection -> MapParse, secs: seq<RawSection>, init: MapRegistry): MapRegistry {
    if secs == [] then init
    else
      var prev := MapsFold(parse, secs[..|secs| - 1], init);
      var s := secs[|secs| - 1];
      if s.stype == "map" then MapStep(parse, s, prev) else prev
  }

  predicate MapAt(secs: seq<RawSection>, i: int, n: string) {
    0 <= i < |secs| && secs[i].stype == "map" && secs[i].name == n
  }

  predicate FirstMapAt(secs: seq<RawSection>, i: int, n: string) {
    MapAt(secs, i, n) && forall j :: 0 <= j < i ==> !MapAt(secs, j, n)
  }

  /** Appending a map does not move the first map of any name already present. */
  lemma MapIndexSnoc(maps: seq<MapSection>, m: MapSection, n: string)
    ensures HasMapIn(maps, n) ==> MapIndex(maps + [m], n) == MapIndex(maps, n)
    ensures !HasMapIn(maps, n) && m.nameShort == n ==> MapIndex(maps + [m], n) == Some(|maps|)
  {
    var r := maps + [m];
    if HasMapIn(maps, n) {
      var k := MapIndex(maps, n).value;
      assert r[k] == maps[k];
      assert HasMapIn(r, n);
      assert MapIndex(r, n).value == k;
    } else if m.nameShort == n {
      assert r[|maps|] == m;
      assert HasMapIn(r, n);
      assert MapIndex(r, n).value == |maps|;
    }
  }

  /** Appending a map named n to a list without n: the names are the old ones and n, still distinct. */
  lemma SnocNames(maps: seq<MapSection>, m: MapSection)
    requires !HasMapIn(maps, m.nameShort)
    ensures forall n :: HasMapIn(maps + [m], n) <==> HasMapIn(maps, n) || n == m.nameShort
    ensures DistinctNames(maps) ==> DistinctNames(maps + [m])
  {
    var r := maps + [m];
    forall n ensures HasMapIn(r, n) <==> HasMapIn(maps, n) || n == m.nameShort {
      if HasMapIn(maps, n) {
        var k :| 0 <= k < |maps| && maps[k].nameShort == n;
        assert r[k] == maps[k];
      }
      if HasMapIn(r, n) {
        var k :| 0 <= k < |r| && r[k].nameShort == n;
        if k < |maps| { assert maps[k] == r[k]; }
      }
      if n == m.nameShort { assert r[|maps|].nameShort == n; }
    }
    if DistinctNames(maps) {
      forall i, j | 0 <= i < j < |r| ensures r[i].nameShort != r[j].nameShort {
        if j == |maps| {
          assert r[i] == maps[i];
        } else {
          assert r[i] == maps[i] && r[j] == maps[j];
        }
      }
    }
  }

  /** The map pass only appends, to the list and to the log. */
  lemma {:induction false} MapsFoldGrows(parse: RawSection -> MapParse, secs: seq<RawSection>, init: MapRegistry)
    ensures var r := MapsFold(parse, secs, init);
      init.maps <= r.maps && init.validation <= r.validation
  {
    if secs != [] {
      MapsFoldGrows(parse, secs[..|secs| - 1], init);
    }
  }

  /** The names after the map pass are the old names plus the map-section names, and stay distinct. */
  lemma {:induction false} MapsFoldNames(parse: RawSection -> MapParse, secs: seq<RawSection>, init: MapRegistry)
    requires forall s :: parse(s).section.nameShort == s.name
    ensures var r := MapsFold(parse, secs, init);
      && (forall n :: HasMapIn(r.maps, n) <==> HasMapIn(init.maps, n) || exists i :: MapAt(secs, i, n))
      && (DistinctNames(init.maps) ==> DistinctNames(r.maps))
  {
    if secs != [] {
      var init', s := secs[..|secs| - 1], secs[|secs| - 1];
      MapsFoldNames(parse, init', init);
      assert forall i, n :: 0 <= i < |init'| ==> (MapAt(init', i, n) <==> MapAt(secs, i, n));
      var prev := MapsFold(parse, init', init);
      if s.stype == "map" && !HasMapIn(prev.maps, s.name) {
        SnocNames(prev.maps, parse(s).section);
      }
      forall n ensures HasMapIn(MapsFold(parse, secs, init).maps, n) <==>
        HasMapIn(init.maps, n) || exists i :: MapAt(secs, i, n)
      {
        if MapAt(secs, |init'|, n) {
          assert HasMapIn(MapsFold(parse, secs, init).maps, n);
        }
        if exists i :: MapAt(secs, i, n) {
          var i :| MapAt(secs, i, n);
          if i < |init'| {
            assert MapAt(init', i, n);
          }
        }
      }
    }
  }

  /** After the map pass, a name new to the list holds the map parsed from its first section. */
  lemma {:induction false} MapsFoldFirst(parse: RawSection -> MapParse, secs: seq<RawSection>, init: MapRegistry)
    requires forall s :: parse(s).section.nameShort == s.name
    ensures forall n, i :: !HasMapIn(init.maps, n) && FirstMapAt(secs, i, n) ==>
      && MapIndex(MapsFold(parse, secs, init).maps, n).Some?
      && MapsFold(parse, secs, init).maps[MapIndex(MapsFold(parse, secs, init).maps, n).value] == parse(secs[i]).section
  {
    if secs != [] {
      var init', s := secs[..|secs| - 1], secs[|secs| - 1];
      MapsFoldFirst(parse, init', init);
      MapsFoldNames(parse, init', init);
      var prev := MapsFold(parse, init', init);
      var r := MapsFold(parse, secs, init);
      var grows := s.stype == "map" && !HasMapIn(prev.maps, s.name);
      assert r.maps == if grows then prev.maps + [parse(s).section] else prev.maps;
      forall n, i | !HasMapIn(init.maps, n) && FirstMapAt(secs, i, n)
        ensures MapIndex(r.maps, n).Some? && r.maps[MapIndex(r.maps, n).value] == parse(secs[i]).section
      {
        if i < |init'| {
          assert init'[i] == secs[i];
          assert forall j :: 0 <= j <= i ==> (MapAt(init', j, n) <==> MapAt(secs, j, n));
          assert FirstMapAt(init', i, n);
          assert MapIndex(prev.maps, n).Some?;
          var k := MapIndex(prev.maps, n).value;
          assert prev.maps[k] == parse(secs[i]).section;
          if grows {
            MapIndexSnoc(prev.maps, parse(s).section, n);
            assert r.maps[k] == prev.maps[k];
          }
        } else {
          assert forall j :: 0 <= j < |init'| ==> !MapAt(init', j, n) by {
            forall j | 0 <= j < |init'| ensures !MapAt(init', j, n) {
              assert !MapAt(secs, j, n);
            }
          }
          assert !HasMapIn(prev.maps, n);
          MapIndexSnoc(prev.maps, parse(s).section, n);
        }
      }
    }
  }

  /**
   * Declaration order: of two names new to the list, the one whose first map
   * section comes earlier sits earlier in the list, and both come after the maps
   * the list had before.
   */
  ghost predicate InDeclarationOrder(maps: seq<MapSection>, before: seq<MapSection>, secs: seq<RawSection>) {
    forall n1, n2, i, j ::
      && !HasMapIn(before, n1) && !HasMapIn(before, n2)
      && FirstMapAt(secs, i, n1) && FirstMapAt(secs, j, n2) && i < j
      ==> && MapIndex(maps, n1).Some? && MapIndex(maps, n2).Some?
          && |before| <= MapIndex(maps, n1).value < MapIndex(maps, n2).value
  }

  /** A name the prefix does not have sits after the prefix. */
  lemma NewNameAfterOld(before: seq<MapSection>, maps: seq<MapSection>, n: string)
    requires before <= maps && !HasMapIn(before, n) && HasMapIn(maps, n)
    ensures |before| <= MapIndex(maps, n).value
  {
    assert forall j :: 0 <= j < |before| ==> maps[j] == before[j];
    assert forall j :: 0 <= j < |before| ==> maps[j].nameShort != n;
  }

  /** A first map section in a list is still the first one in the list with one more section. */
  lemma FirstMapAtInit(secs: seq<RawSection>, i: int, n: string)
    requires FirstMapAt(secs, i, n) && i < |secs| - 1
    ensures FirstMapAt(secs[..|secs| - 1], i, n)
  {
    var init := secs[..|secs| - 1];
    assert MapAt(init, i, n);
    forall k | 0 <= k < i ensures !MapAt(init, k, n) {
      assert !MapAt(secs, k, n);
    }
  }

  /** Two new names, first declared at sections i < j, end up in that order. */
  lemma {:induction false} MapsFoldOrderPair(parse: RawSection -> MapParse, secs: seq<RawSection>, init: MapRegistry,
                                             n1: string, n2: string, i: int, j: int)
    requires forall s :: parse(s).section.nameShort == s.name
    requires !HasMapIn(init.maps, n1) && !HasMapIn(init.maps, n2)
    requires FirstMapAt(secs, i, n1) && FirstMapAt(secs, j, n2) && i < j
    ensures var maps := MapsFold(parse, secs, init).maps;
      MapIndex(maps, n1).Some? && MapIndex(maps, n2).Some? && MapIndex(maps, n1).value < MapIndex(maps, n2).value
    decreases |secs|
  {
    var init', s := secs[..|secs| - 1], secs[|secs| - 1];
    var prev := MapsFold(parse, init', init);
    var m := parse(s).section;
    var grows := s.stype == "map" && !HasMapIn(prev.maps, s.name);
    assert MapsFold(parse, secs, init).maps == if grows then prev.maps + [m] else prev.maps;
    FirstMapAtInit(secs, i, n1);
    MapsFoldFirst(parse, init', init);
    assert MapIndex(prev.maps, n1).Some?;
    if j < |init'| {
      FirstMapAtInit(secs, j, n2);
      MapsFoldOrderPair(parse, init', init, n1, n2, i, j);
      if grows {
        MapIndexSnoc(prev.maps, m, n1);
        MapIndexSnoc(prev.maps, m, n2);
      }
    } else {
      MapsFoldNames(parse, init', init);
      assert forall k :: 0 <= k < |init'| ==> !MapAt(init', k, n2) by {
        forall k | 0 <= k < |init'| ensures !MapAt(init', k, n2) {
          assert !MapAt(secs, k, n2);
        }
      }
      assert !HasMapIn(prev.maps, n2);
      MapIndexSnoc(prev.maps, m, n1);
      MapIndexSnoc(prev.maps, m, n2);
    }
  }

  /** The map pass appends the new maps in the order of their first sections. */
  lemma MapsFoldOrder(parse: RawSection -> MapParse, secs: seq<RawSection>, init: MapRegistry)
    requires forall s :: parse(s).section.nameShort == s.name
    ensures InDeclarationOrder(MapsFold(parse, secs, init).maps, init.maps, secs)
  {
    var maps := MapsFold(parse, secs, init).maps;
    MapsFoldGrows(parse, secs, init);
    forall n1, n2, i, j | && !HasMapIn(init.maps, n1) && !HasMapIn(init.maps, n2)
                          && FirstMapAt(secs, i, n1) && FirstMapAt(secs, j, n2) && i < j
      ensures && MapIndex(maps, n1).Some? && MapIndex(maps, n2).Some?
              && |init.maps| <= MapIndex(maps, n1).value < MapIndex(maps, n2).value
    {
      MapsFoldOrderPair(parse, secs, init, n1, n2, i, j);
      NewNameAfterOld(init.maps, maps, n1);
    }
  }

  /**
   * The map list after the pass: the maps it had stay in front, unchanged; the
   * names are the old names plus the map-section names; short names stay
   * distinct; a new name holds its first map section.
   */
  lemma MapsFoldRegistered(parse: RawSection -> MapParse, secs: seq<RawSection>, init: MapRegistry)
    requires forall s :: parse(s).section.nameShort == s.name
    ensures var r := MapsFold(parse, secs, init);
      && init.maps <= r.maps
      && (forall n :: HasMapIn(r.maps, n) <==> HasMapIn(init.maps, n) || exists i :: MapAt(secs, i, n))
      && (DistinctNames(init.maps) ==> DistinctNames(r.maps))
      && (forall n, i :: !HasMapIn(init.maps, n) && FirstMapAt(secs, i, n) ==>
            MapIndex(r.maps, n).Some? && r.maps[MapIndex(r.maps, n).value] == parse(secs[i]).section)
      && InDeclarationOrder(r.maps, init.maps, secs)
      && init.validation <= r.validation
  {
    MapsFoldGrows(parse, secs, init);
    MapsFoldNames(parse, secs, init);
    MapsFoldFirst(parse, secs, init);
    MapsFoldOrder(parse, secs, init);
  }

  /** Every map section parses. */
  predicate MapSectionsParse(parse: RawSection -> MapParse, secs: seq<RawSection>) {
    forall i :: 0 <= i < |secs| && secs[i].stype == "map" ==> parse(secs[i]).valid
  }

  /** No two map sections share a name. */
  predicate MapNamesDistinct(secs: seq<RawSection>) {
    forall i, j :: 0 <= i < j < |secs| && secs[i].stype == "map" && secs[j].stype == "map" ==>
      secs[i].name != secs[j].name
  }

  /** No map section reuses the short name of a map already in the list. */
  predicate MapNamesFresh(secs: seq<RawSection>, maps: seq<MapSection>) {
    forall i :: 0 <= i < |secs| && secs[i].stype == "map" ==> !HasMapIn(maps, secs[i].name)
  }

  lemma MapConditionsSnoc(parse: RawSection -> MapParse, secs: seq<RawSection>, maps: seq<MapSection>)
    requires secs != []
    ensures var init, s := secs[..|secs| - 1], secs[|secs| - 1];
      && (MapSectionsParse(parse, secs) <==>
            MapSectionsParse(parse, init) && (s.stype == "map" ==> parse(s).valid))
      && (MapNamesDistinct(secs) <==>
            MapNamesDistinct(init) && (s.stype == "map" ==> forall j :: 0 <= j < |init| ==> !MapAt(init, j, s.name)))
      && (MapNamesFresh(secs, maps) <==>
            MapNamesFresh(init, maps) && (s.stype == "map" ==> !HasMapIn(maps, s.name)))
  {
    var init, s := secs[..|secs| - 1], secs[|secs| - 1];
    assert forall i :: 0 <= i < |init| ==> init[i] == secs[i];
    if MapNamesDistinct(init) && (s.stype == "map" ==> forall j :: 0 <= j < |init| ==> !MapAt(init, j, s.name)) {
      forall i, j | 0 <= i < j < |secs| && secs[i].stype == "map" && secs[j].stype == "map"
        ensures secs[i].name != secs[j].name
      {
        if j == |init| {
          assert !MapAt(init, i, s.name);
        }
      }
    }
  }

  /** The success flag after the map pass, as for worlds. */
  lemma {:induction false} MapsFoldOk(parse: RawSection -> MapParse, secs: seq<RawSection>, init: MapRegistry)
    requires forall s :: parse(s).section.nameShort == s.name
    ensures MapsFold(parse, secs, init).ok <==>
      init.ok && MapSectionsParse(parse, secs) && MapNamesDistinct(secs) && MapNamesFresh(secs, init.maps)
  {
    if secs != [] {
      var init', s := secs[..|secs| - 1], secs[|secs| - 1];
      MapsFoldOk(parse, init', init);
      MapsFoldRegistered(parse, init', init);
      MapConditionsSnoc(parse, secs, init.maps);
      var prev := MapsFold(parse, init', init);
      if s.stype == "map" {
        assert HasMapIn(prev.maps, s.name) <==> HasMapIn(init.maps, s.name) || exists j :: MapAt(init', j, s.name);
        assert (exists j :: MapAt(init', j, s.name)) <==> !(forall j :: 0 <= j < |init'| ==> !MapAt(init', j, s.name));
      }
    }
  }

  /** Every rotation set stays within 0..3 when the parser's and the old maps' sets do. */
  lemma {:induction false} MapsFoldRotations(parse: RawSection -> MapParse, secs: seq<RawSection>, init: MapRegistry)
    requires forall s :: ValidRotations(parse(s).section.rotationsSet)
    requires forall i :: 0 <= i < |init.maps| ==> ValidRotations(init.maps[i].rotationsSet)
    ensures var res := MapsFold(parse, secs, init);
      forall i :: 0 <= i < |res.maps| ==> ValidRotations(res.maps[i].rotationsSet)
  {
    if secs != [] {
      MapsFoldRotations(parse, secs[..|secs| - 1], init);
      var prev := MapsFold(parse, secs[..|secs| - 1], init);
      assert var res := MapsFold(parse, secs[..|secs| - 1], init);
        forall i :: 0 <= i < |res.maps| ==> ValidRotations(res.maps[i].rotationsSet);
      assert forall i :: 0 <= i < |prev.maps| ==> ValidRotations(prev.maps[i].rotationsSet);
      var s := secs[|secs| - 1];
      if s.stype == "map" && !HasMapIn(prev.maps, s.name) {
        var r := prev.maps + [parse(s).section];
        assert MapsFold(parse, secs, init).maps == r;
        assert ValidRotations(parse(s).section.rotationsSet);
        forall i | 0 <= i < |r| ensures ValidRotations(r[i].rotationsSet) {
          if i < |prev.maps| {
            assert r[i] == prev.maps[i];
            assert ValidRotations(prev.maps[i].rotationsSet);
          } else {
            assert r[i] == parse(s).section;
          }
        }
      }
    }
  }

  /**
   * The entry of world section i: its own diagnostics, plus exactly one
   * "already used" error when its name was registered before or declared by an
   * earlier world section; such a duplicate leaves the dictionary as it was and
   * fails the parse.
   */
  lemma WorldsFoldEntry(parse: RawSection -> WorldParse, secs: seq<RawSection>, init: WorldRegistry, i: int)
    requires 0 <= i < |secs| && secs[i].stype == "world"
    ensures var n := secs[i].name;
      var dup := n in init.worlds || exists j :: 0 <= j < i && WorldAt(secs, j, n);
      var before := WorldsFold(parse, secs[..i], init);
      var after := WorldsFold(parse, secs[..i + 1], init);
      && after.validation ==
           before.validation + [(WorldLabel(n), parse(secs[i]).validation + if dup then [WorldNameUsed(n)] else [])]
      && (dup ==> after.worlds == before.worlds && !after.ok)
      && (!dup ==> after.worlds == before.worlds[n := parse(secs[i]).section])
  {
    var n := secs[i].name;
    assert secs[..i + 1][..i] == secs[..i];
    WorldsFoldRegistered(parse, secs[..i], init);
    assert forall j :: 0 <= j < i ==> (WorldAt(secs[..i], j, n) <==> WorldAt(secs, j, n));
    assert parse(secs[i]).validation + [] == parse(secs[i]).validation;
  }

  /** The entry of map section i, as for worlds; a map not seen before is appended to the list. */
  lemma MapsFoldEntry(parse: RawSection -> MapParse, secs: seq<RawSection>, init: MapRegistry, i: int)
    requires forall s :: parse(s).section.nameShort == s.name
    requires 0 <= i < |secs| && secs[i].stype == "map"
    ensures var n := secs[i].name;
      var dup := HasMapIn(init.maps, n) || exists j :: 0 <= j < i && MapAt(secs, j, n);
      var before := MapsFold(parse, secs[..i], init);
      var after := MapsFold(parse, secs[..i + 1], init);
      && after.validation ==
           before.validation + [(MapLabel(n), parse(secs[i]).validation + if dup then [MapNameUsed(n)] else [])]
      && (dup ==> after.maps == before.maps && !after.ok)
      && (!dup ==> after.maps == before.maps + [parse(secs[i]).section])
  {
    var n := secs[i].name;
    assert secs[..i + 1][..i] == secs[..i];
    MapsFoldRegistered(parse, secs[..i], init);
    assert forall j :: 0 <= j < i ==> (MapAt(secs[..i], j, n) <==> MapAt(secs, j, n));
    assert parse(secs[i]).validation + [] == parse(secs[i]).validation;
  }

  // ------------------------------------------------------------ the parse

  /** The fields of a MapcrafterConfigFile. */
  datatype ConfigState = ConfigState(
    outputDir: Field<string>,
    templateDir: Field<string>,
    worldGlobal: WorldSection,
    mapGlobal: MapSection,
    worlds: map<string, WorldSection>,
    maps: seq<MapSection>)

  /** A configuration object before any parse: empty, with both templates marked global. */
  function InitialState(): ConfigState {
    ConfigState(Field("", false), Field("", false), NewWorldSection(true), NewMapSection(true), map[], [])
  }

  datatype ParseOutcome = ParseOutcome(state: ConfigState, validation: ValidationMap, ok: bool)

  /** The world template step: parsed in place when `[global:worlds]` exists. */
  function GlobalWorld(template: WorldSection, secs: seq<RawSection>, configDir: string, env: Env): WorldParse {
    match FindSection(secs, "global", "worlds")
    case Some(s) => ParseWorld(template, s, configDir, env, [])
    case None => WorldParse(template, [], true)
  }

  /** The map template step: parsed in place when `[global:maps]` exists. */
  function GlobalMap(template: MapSection, secs: seq<RawSection>, configDir: string, env: Env): MapParse {
    match FindSection(secs, "global", "maps")
    case Some(s) => ParseMap(template, s, configDir, env, [])
    case None => MapParse(template, [], true)
  }

  /** A labelled entry is added only when it holds a message. */
  function AddIfAny(v: ValidationMap, title: string, msgs: ValidationList): ValidationMap {
    if msgs != [] then v + [(title, msgs)] else v
  }

  /**
   * MapcrafterConfigFile::parse from a state st, appending to the diagnostics v.
   * The general options only add diagnostics; a failing template ends the parse
   * before any world or map section is looked at.
   */
  function ParseSpec(st: ConfigState, file: LoadedFile, filename: string, env: Env,
                     v: ValidationMap): ParseOutcome
  {
    match file
    case LoadFailed(msg) => ParseOutcome(st, v + [(CONFIG_FILE_LABEL, [msg])], false)
    case LoadedOk(root, secs) =>
      var configDir := env.parentPath(filename);
      var g := ParseGeneral(st.outputDir, st.templateDir, root, configDir, env);
      var v1 := v + [(CONFIG_FILE_LABEL, g.messages)];
      var pw := GlobalWorld(st.worldGlobal, secs, configDir, env);
      var st1 := st.(outputDir := g.outputDir, templateDir := g.templateDir, worldGlobal := pw.section);
      var v2 := AddIfAny(v1, GLOBAL_WORLD_LABEL, pw.validation);
      if !pw.valid then ParseOutcome(st1, v2, false)
      else
        var pm := GlobalMap(st.mapGlobal, secs, configDir, env);
        var st2 := st1.(mapGlobal := pm.section);
        var v3 := AddIfAny(v2, GLOBAL_MAP_LABEL, pm.validation);
        if !pm.valid then ParseOutcome(st2, v3, false)
        else
          RegisterSpec(st2, secs, configDir, env, v3, true)
  }

  /**
   * The passes after the templates: one warning per unknown section, then the
   * world sections and the map sections, each parsed on its template.
   */
  function RegisterSpec(st: ConfigState, secs: seq<RawSection>, configDir: string, env: Env,
                        v: ValidationMap, ok: bool): ParseOutcome
  {
    var wr := WorldsFold(WorldParser(st.worldGlobal, configDir, env), secs,
                         WorldRegistry(st.worlds, v + UnknownWarnings(secs), ok));
    var mr := MapsFold(MapParser(st.mapGlobal, configDir, env), secs, MapRegistry(st.maps, wr.validation, wr.ok));
    ParseOutcome(st.(worlds := wr.worlds, maps := mr.maps), mr.validation, mr.ok)
  }

  /** A file that cannot be read fails with one entry and changes nothing. */
  lemma ParseLoadFailed(st: ConfigState, msg: Message, filename: string, env: Env, v: ValidationMap)
    ensures var r := ParseSpec(st, LoadFailed(msg), filename, env, v);
      !r.ok && r.state == st && r.validation == v + [(CONFIG_FILE_LABEL, [msg])]
  {
  }

  /** The labels of the entries the parse adds before it looks at any world or map section. */
  predicate TemplateLabel(title: string) {
    title == GLOBAL_WORLD_LABEL || title == GLOBAL_MAP_LABEL
  }

  /**
   * A template that fails ends the parse: the result is false, no world or map is
   * registered, and the general entry is followed only by template entries, at
   * most two of them, so no unknown-section, world or map entry is added.
   */
  lemma TemplateFailureStops(st: ConfigState, root: Entries, secs: seq<RawSection>, filename: string,
                             env: Env, v: ValidationMap)
    requires !GlobalWorld(st.worldGlobal, secs, env.parentPath(filename), env).valid ||
             !GlobalMap(st.mapGlobal, secs, env.parentPath(filename), env).valid
    ensures var r := ParseSpec(st, LoadedOk(root, secs), filename, env, v);
      && !r.ok
      && r.state.worlds == st.worlds
      && r.state.maps == st.maps
      && v < r.validation
      && |r.validation| <= |v| + 3
      && r.validation[|v|].0 == CONFIG_FILE_LABEL
      && forall k :: |v| < k < |r.validation| ==> TemplateLabel(r.validation[k].0)
  {
    var configDir := env.parentPath(filename);
    var g := ParseGeneral(st.outputDir, st.templateDir, root, configDir, env);
    var v1 := v + [(CONFIG_FILE_LABEL, g.messages)];
    var pw := GlobalWorld(st.worldGlobal, secs, configDir, env);
    var v2 := AddIfAny(v1, GLOBAL_WORLD_LABEL, pw.validation);
    assert forall k :: |v| < k < |v2| ==> v2[k].0 == GLOBAL_WORLD_LABEL;
    if pw.valid {
      var pm := GlobalMap(st.mapGlobal, secs, configDir, env);
      var v3 := AddIfAny(v2, GLOBAL_MAP_LABEL, pm.validation);
      assert forall k :: |v| < k < |v3| ==> TemplateLabel(v3[k].0);
    }
  }

  /**
   * The general options never decide the outcome: two files with the same
   * sections and any root entries give the same result, the same templates and
   * the same worlds and maps.
   */
  lemma GeneralOptionsOnlyReport(st: ConfigState, root1: Entries, root2: Entries, secs: seq<RawSection>,
                                 filename: string, env: Env, v: ValidationMap)
    ensures var r1 := ParseSpec(st, LoadedOk(root1, secs), filename, env, v);
      var r2 := ParseSpec(st, LoadedOk(root2, secs), filename, env, v);
      && r1.ok == r2.ok
      && r1.state.worldGlobal == r2.state.worldGlobal
      && r1.state.mapGlobal == r2.state.mapGlobal
      && r1.state.worlds == r2.state.worlds
      && r1.state.maps == r2.state.maps
  {
    var configDir := env.parentPath(filename);
    var pw := GlobalWorld(st.worldGlobal, secs, configDir, env);
    var pm := GlobalMap(st.mapGlobal, secs, configDir, env);
    if pw.valid && pm.valid {
      var g1 := ParseGeneral(st.outputDir, st.templateDir, root1, configDir, env);
      var g2 := ParseGeneral(st.outputDir, st.templateDir, root2, configDir, env);
      var v3 := AddIfAny(AddIfAny(v + [(CONFIG_FILE_LABEL, g1.messages)], GLOBAL_WORLD_LABEL, pw.validation),
                         GLOBAL_MAP_LABEL, pm.validation);
      var v3' := AddIfAny(AddIfAny(v + [(CONFIG_FILE_LABEL, g2.messages)], GLOBAL_WORLD_LABEL, pw.validation),
                          GLOBAL_MAP_LABEL, pm.validation);
      var wp, mp := WorldParser(pw.section, configDir, env), MapParser(pm.section, configDir, env);
      var w1 := WorldsFold(wp, secs, WorldRegistry(st.worlds, v3 + UnknownWarnings(secs), true));
      var w2 := WorldsFold(wp, secs, WorldRegistry(st.worlds, v3' + UnknownWarnings(secs), true));
      WorldsFoldIgnoresLog(wp, secs, st.worlds, v3 + UnknownWarnings(secs), v3' + UnknownWarnings(secs), true);
      MapsFoldIgnoresLog(mp, secs, st.maps, w1.validation, w2.validation, w1.ok);
    }
  }

  /** The diagnostics collected so far do not influence the world pass. */
  lemma {:induction false} WorldsFoldIgnoresLog(parse: RawSection -> WorldParse, secs: seq<RawSection>,
                                                worlds: map<string, WorldSection>, v1: ValidationMap,
                                                v2: ValidationMap, ok: bool)
    ensures WorldsFold(parse, secs, WorldRegistry(worlds, v1, ok)).worlds ==
            WorldsFold(parse, secs, WorldRegistry(worlds, v2, ok)).worlds
    ensures WorldsFold(parse, secs, WorldRegistry(worlds, v1, ok)).ok ==
            WorldsFold(parse, secs, WorldRegistry(worlds, v2, ok)).ok
  {
    if secs != [] {
      WorldsFoldIgnoresLog(parse, secs[..|secs| - 1], worlds, v1, v2, ok);
    }
  }

  /** The diagnostics collected so far do not influence the map pass. */
  lemma {:induction false} MapsFoldIgnoresLog(parse: RawSection -> MapParse, secs: seq<RawSection>,
                                              maps: seq<MapSection>, v1: ValidationMap, v2: ValidationMap, ok: bool)
    ensures MapsFold(parse, secs, MapRegistry(maps, v1, ok)).maps == MapsFold(parse, secs, MapRegistry(maps, v2, ok)).maps
    ensures MapsFold(parse, secs, MapRegistry(maps, v1, ok)).ok == MapsFold(parse, secs, MapRegistry(maps, v2, ok)).ok
  {
    if secs != [] {
      MapsFoldIgnoresLog(parse, secs[..|secs| - 1], maps, v1, v2, ok);
    }
  }

  /**
   * When the file is read the parse succeeds iff both templates (where present)
   * parse, every world and map section parses on its template, no name is used
   * twice among the world sections or among the map sections, and no name was
   * registered before.
   */
  lemma ParseOk(st: ConfigState, root: Entries, secs: seq<RawSection>, filename: string, env: Env,
                v: ValidationMap)
    ensures var configDir := env.parentPath(filename);
      var pw := GlobalWorld(st.worldGlobal, secs, configDir, env);
      var pm := GlobalMap(st.mapGlobal, secs, configDir, env);
      ParseSpec(st, LoadedOk(root, secs), filename, env, v).ok <==>
        && pw.valid
        && pm.valid
        && WorldSectionsParse(WorldParser(pw.section, configDir, env), secs)
        && WorldNamesDistinct(secs)
        && WorldNamesFresh(secs, st.worlds)
        && MapSectionsParse(MapParser(pm.section, configDir, env), secs)
        && MapNamesDistinct(secs)
        && MapNamesFresh(secs, st.maps)
  {
    var configDir := env.parentPath(filename);
    var pw := GlobalWorld(st.worldGlobal, secs, configDir, env);
    var pm := GlobalMap(st.mapGlobal, secs, configDir, env);
    if pw.valid && pm.valid {
      var g := ParseGeneral(st.outputDir, st.templateDir, root, configDir, env);
      var v3 := AddIfAny(AddIfAny(v + [(CONFIG_FILE_LABEL, g.messages)], GLOBAL_WORLD_LABEL, pw.validation),
                         GLOBAL_MAP_LABEL, pm.validation);
      var wp, mp := WorldParser(pw.section, configDir, env), MapParser(pm.section, configDir, env);
      var init := WorldRegistry(st.worlds, v3 + UnknownWarnings(secs), true);
      WorldsFoldOk(wp, secs, init);
      var wr := WorldsFold(wp, secs, init);
      MapParserFacts(pm.section, configDir, env);
      MapsFoldOk(mp, secs, MapRegistry(st.maps, wr.validation, wr.ok));
      assert ParseSpec(st, LoadedOk(root, secs), filename, env, v).ok ==
        MapsFold(mp, secs, MapRegistry(st.maps, wr.validation, wr.ok)).ok;
    }
  }

  /**
   * Registration after a parse whose templates pass: worlds keep their old
   * bindings and a new name is bound to its first world section; the old maps
   * stay in front, short names stay distinct and a new name holds its first map
   * section; every rotation set stays within 0..3.
   */
  lemma ParseRegistered(st: ConfigState, root: Entries, secs: seq<RawSection>, filename: string, env: Env,
                        v: ValidationMap)
    requires DistinctNames(st.maps)
    requires ValidRotations(st.mapGlobal.rotationsSet)
    requires forall i :: 0 <= i < |st.maps| ==> ValidRotations(st.maps[i].rotationsSet)
    ensures var configDir := env.parentPath(filename);
      var pw := GlobalWorld(st.worldGlobal, secs, configDir, env);
      var pm := GlobalMap(st.mapGlobal, secs, configDir, env);
      var r := ParseSpec(st, LoadedOk(root, secs), filename, env, v);
      && (forall n :: n in st.worlds ==> n in r.state.worlds && r.state.worlds[n] == st.worlds[n])
      && (forall n, i :: pw.valid && pm.valid && n !in st.worlds && FirstWorldAt(secs, i, n) ==>
            n in r.state.worlds && r.state.worlds[n] == WorldParser(pw.section, configDir, env)(secs[i]).section)
      && st.maps <= r.state.maps
      && DistinctNames(r.state.maps)
      && (forall n, i :: pw.valid && pm.valid && !HasMapIn(st.maps, n) && FirstMapAt(secs, i, n) ==>
            MapIndex(r.state.maps, n).Some? &&
            r.state.maps[MapIndex(r.state.maps, n).value] == MapParser(pm.section, configDir, env)(secs[i]).section)
      && (forall i :: 0 <= i < |r.state.maps| ==> ValidRotations(r.state.maps[i].rotationsSet))
  {
    var configDir := env.parentPath(filename);
    var pw := GlobalWorld(st.worldGlobal, secs, configDir, env);
    var pm := GlobalMap(st.mapGlobal, secs, configDir, env);
    if pw.valid && pm.valid {
      var g := ParseGeneral(st.outputDir, st.templateDir, root, configDir, env);
      var v3 := AddIfAny(AddIfAny(v + [(CONFIG_FILE_LABEL, g.messages)], GLOBAL_WORLD_LABEL, pw.validation),
                         GLOBAL_MAP_LABEL, pm.validation);
      var wp, mp := WorldParser(pw.section, configDir, env), MapParser(pm.section, configDir, env);
      var init := WorldRegistry(st.worlds, v3 + UnknownWarnings(secs), true);
      WorldsFoldRegistered(wp, secs, init);
      var wr := WorldsFold(wp, secs, init);
      var minit := MapRegistry(st.maps, wr.validation, wr.ok);
      GlobalMapRotations(st.mapGlobal, secs, configDir, env);
      MapParserFacts(pm.section, configDir, env);
      MapsFoldRegistered(mp, secs, minit);
      MapsFoldRotations(mp, secs, minit);
      var r := ParseSpec(st, LoadedOk(root, secs), filename, env, v);
      assert r.state.worlds == wr.worlds;
      assert r.state.maps == MapsFold(mp, secs, minit).maps;
    } else {
      var r := ParseSpec(st, LoadedOk(root, secs), filename, env, v);
      assert r.state.worlds == st.worlds && r.state.maps == st.maps;
    }
  }

  /**
   * Names and order after a parse: when the templates pass, the world names are
   * the old names plus the world-section names, the map names are the old names
   * plus the map-section names, and the new maps follow the old ones in the order
   * of their first sections; when a template fails, no world or map is added.
   */
  lemma ParseRegisteredNames(st: ConfigState, root: Entries, secs: seq<RawSection>, filename: string, env: Env,
                             v: ValidationMap)
    ensures var configDir := env.parentPath(filename);
      var pw := GlobalWorld(st.worldGlobal, secs, configDir, env);
      var pm := GlobalMap(st.mapGlobal, secs, configDir, env);
      var r := ParseSpec(st, LoadedOk(root, secs), filename, env, v);
      && (pw.valid && pm.valid ==>
            && (forall n :: n in r.state.worlds <==> n in st.worlds || exists i :: WorldAt(secs, i, n))
            && (forall n :: HasMapIn(r.state.maps, n) <==> HasMapIn(st.maps, n) || exists i :: MapAt(secs, i, n))
            && InDeclarationOrder(r.state.maps, st.maps, secs))
      && (!(pw.valid && pm.valid) ==> r.state.worlds == st.worlds && r.state.maps == st.maps)
  {
    var configDir := env.parentPath(filename);
    var pw := GlobalWorld(st.worldGlobal, secs, configDir, env);
    var pm := GlobalMap(st.mapGlobal, secs, configDir, env);
    var r := ParseSpec(st, LoadedOk(root, secs), filename, env, v);
    if pw.valid && pm.valid {
      var g := ParseGeneral(st.outputDir, st.templateDir, root, configDir, env);
      var v3 := AddIfAny(AddIfAny(v + [(CONFIG_FILE_LABEL, g.messages)], GLOBAL_WORLD_LABEL, pw.validation),
                         GLOBAL_MAP_LABEL, pm.validation);
      var wp, mp := WorldParser(pw.section, configDir, env), MapParser(pm.section, configDir, env);
      var init := WorldRegistry(st.worlds, v3 + UnknownWarnings(secs), true);
      WorldsFoldRegistered(wp, secs, init);
      var wr := WorldsFold(wp, secs, init);
      var minit := MapRegistry(st.maps, wr.validation, wr.ok);
      MapParserFacts(pm.section, configDir, env);
      MapsFoldRegistered(mp, secs, minit);
      assert r.state.worlds == wr.worlds;
      assert r.state.maps == MapsFold(mp, secs, minit).maps;
    } else {
      assert r.state.worlds == st.worlds && r.state.maps == st.maps;
    }
  }

  /** The map template keeps its rotations within 0..3. */
  lemma GlobalMapRotations(template: MapSection, secs: seq<RawSection>, configDir: string, env: Env)
    requires ValidRotations(template.rotationsSet)
    ensures ValidRotations(GlobalMap(template, secs, configDir, env).section.rotationsSet)
  {
    match FindSection(secs, "global", "maps")
    case Some(s) =>
      TokenRotationsRange(Words(ParseMap(template, s, configDir, env, []).section.rotations.value));
    case None =>
  }

  /** Dropping the sections of unknown type changes neither pass. */
  lemma {:induction false} FoldsIgnoreUnknown(wp: RawSection -> WorldParse, mp: RawSection -> MapParse,
                                              secs: seq<RawSection>, winit: WorldRegistry, minit: MapRegistry)
    ensures WorldsFold(wp, KnownSections(secs), winit) == WorldsFold(wp, secs, winit)
    ensures MapsFold(mp, KnownSections(secs), minit) == MapsFold(mp, secs, minit)
  {
    if secs != [] {
      var init', s := secs[..|secs| - 1], secs[|secs| - 1];
      FoldsIgnoreUnknown(wp, mp, init', winit, minit);
      var ks := KnownSections(init');
      if IsKnown(s) {
        assert (ks + [s])[..|ks|] == ks;
      } else {
        assert KnownSections(secs) == ks + [] == ks;
      }
    }
  }

  /** Both templates are sections of a known type. */
  lemma TemplateKnown(s: RawSection)
    requires s.stype == "global" && (s.name == "worlds" || s.name == "maps")
    ensures IsKnown(s)
  {
    assert s.NameType() == "global:" + s.name;
  }

  /** FindSection on a list one section longer. */
  lemma FindSectionSnoc(secs: seq<RawSection>, s: RawSection, stype: string, name: string)
    ensures FindSection(secs + [s], stype, name) ==
      if FindSection(secs, stype, name).Some? then FindSection(secs, stype, name)
      else if s.stype == stype && s.name == name then Some(s) else None
  {
    assert (secs + [s])[..|secs|] == secs;
  }

  lemma {:induction false} FindIgnoresUnknown(secs: seq<RawSection>, name: string)
    requires name == "worlds" || name == "maps"
    ensures FindSection(KnownSections(secs), "global", name) == FindSection(secs, "global", name)
  {
    if secs != [] {
      var init', s := secs[..|secs| - 1], secs[|secs| - 1];
      FindIgnoresUnknown(init', name);
      var ks := KnownSections(init');
      assert secs == init' + [s];
      FindSectionSnoc(init', s, "global", name);
      if s.stype == "global" && s.name == name {
        TemplateKnown(s);
      }
      if IsKnown(s) {
        assert KnownSections(secs) == ks + [s];
        FindSectionSnoc(ks, s, "global", name);
      } else {
        assert KnownSections(secs) == ks + [] == ks;
      }
    }
  }


  /**
   * Unknown sections only warn: removing them from a file changes neither the
   * result nor the templates, worlds or maps.
   */
  lemma UnknownSectionsOnlyWarn(st: ConfigState, root: Entries, secs: seq<RawSection>, filename: string,
                                env: Env, v: ValidationMap)
    ensures var r1 := ParseSpec(st, LoadedOk(root, secs), filename, env, v);
      var r2 := ParseSpec(st, LoadedOk(root, KnownSections(secs)), filename, env, v);
      && r1.ok == r2.ok
      && r1.state == r2.state
  {
    var configDir := env.parentPath(filename);
    var ks := KnownSections(secs);
    FindIgnoresUnknown(secs, "worlds");
    FindIgnoresUnknown(secs, "maps");
    var pw := GlobalWorld(st.worldGlobal, secs, configDir, env);
    var pm := GlobalMap(st.mapGlobal, secs, configDir, env);
    assert pw == GlobalWorld(st.worldGlobal, ks, configDir, env);
    assert pm == GlobalMap(st.mapGlobal, ks, configDir, env);
    if pw.valid && pm.valid {
      var g := ParseGeneral(st.outputDir, st.templateDir, root, configDir, env);
      var v3 := AddIfAny(AddIfAny(v + [(CONFIG_FILE_LABEL, g.messages)], GLOBAL_WORLD_LABEL, pw.validation),
                         GLOBAL_MAP_LABEL, pm.validation);
      var wp, mp := WorldParser(pw.section, configDir, env), MapParser(pm.section, configDir, env);
      var w1 := WorldsFold(wp, secs, WorldRegistry(st.worlds, v3 + UnknownWarnings(secs), true));
      var w2 := WorldsFold(wp, ks, WorldRegistry(st.worlds, v3 + UnknownWarnings(ks), true));
      var w2' := WorldsFold(wp, secs, WorldRegistry(st.worlds, v3 + UnknownWarnings(ks), true));
      FoldsIgnoreUnknown(wp, mp, secs, WorldRegistry(st.worlds, v3 + UnknownWarnings(ks), true),
                         MapRegistry(st.maps, w2.validation, w2.ok));
      WorldsFoldIgnoresLog(wp, secs, st.worlds, v3 + UnknownWarnings(secs), v3 + UnknownWarnings(ks), true);
      MapsFoldIgnoresLog(mp, secs, st.maps, w1.validation, w2.validation, w1.ok);
    }
  }

  // ------------------------------------------------------------ the object

  /** The parsed configuration: general options, the two templates, the worlds by name and the maps in order. */
  class MapcrafterConfigFile {
    var outputDir: Field<string>
    var templateDir: Field<string>
    var worldGlobal: WorldSection
    var mapGlobal: MapSection
    var worlds: map<string, WorldSection>
    var maps: seq<MapSection>

    function State(): ConfigState
      reads this
    {
      ConfigState(outputDir, templateDir, worldGlobal, mapGlobal, worlds, maps)
    }

    constructor()
      ensures State() == InitialState()
    {
      outputDir := Field("", false);
      templateDir := Field("", false);
      worldGlobal := NewWorldSection(true);
      mapGlobal := NewMapSection(true);
      worlds := map[];
      maps := [];
    }

    /**
     * parse: reads the general options and the templates, warns about unknown
     * sections, then registers the world and the map sections, each in its own
     * pass over the sections; the new state and diagnostics are those of ParseSpec.
     */
    method Parse(file: LoadedFile, filename: string, env: Env, validation: ValidationMap)
      returns (ok: bool, validation': ValidationMap)
      modifies this
      ensures ParseSpec(old(State()), file, filename, env, validation) == ParseOutcome(State(), validation', ok)
    {
      if file.LoadFailed? {
        validation' := validation + [(CONFIG_FILE_LABEL, [file.message])];
        return false, validation';
      }
      ghost var st := State();
      var secs := file.sections;
      var configDir := env.parentPath(filename);
      ok := true;

      var g := ParseGeneral(outputDir, templateDir, file.root, configDir, env);
      outputDir, templateDir := g.outputDir, g.templateDir;
      validation' := validation + [(CONFIG_FILE_LABEL, g.messages)];

      var pw := GlobalWorld(worldGlobal, secs, configDir, env);
      worldGlobal := pw.section;
      ok := pw.valid && ok;
      validation' := AddIfAny(validation', GLOBAL_WORLD_LABEL, pw.validation);
      ghost var st1 := st.(outputDir := g.outputDir, templateDir := g.templateDir, worldGlobal := pw.section);
      assert State() == st1;
      if !ok {
        return;
      }

      var pm := GlobalMap(mapGlobal, secs, configDir, env);
      mapGlobal := pm.section;
      ok := pm.valid && ok;
      validation' := AddIfAny(validation', GLOBAL_MAP_LABEL, pm.validation);
      assert State() == st1.(mapGlobal := pm.section);
      if !ok {
        return;
      }

      validation', ok := RegisterSections(secs, configDir, env, validation', ok);
    }

    /** The three passes that follow the templates, in the order parse runs them. */
    method RegisterSections(secs: seq<RawSection>, configDir: string, env: Env, validation: ValidationMap, ok: bool)
      returns (validation': ValidationMap, ok': bool)
      modifies this`worlds, this`maps
      ensures RegisterSpec(old(State()), secs, configDir, env, validation, ok) == ParseOutcome(State(), validation', ok')
    {
      validation' := WarnUnknownSections(secs, validation);
      validation', ok' := RegisterWorlds(secs, configDir, env, validation', ok);
      validation', ok' := RegisterMaps(secs, configDir, env, validation', ok');
    }

    /** The pass that adds one warning entry per section of unknown type. */
    static method WarnUnknownSections(secs: seq<RawSection>, validation: ValidationMap)
      returns (validation': ValidationMap)
      ensures validation' == validation + UnknownWarnings(secs)
    {
      validation' := validation;
      var i := 0;
      while i < |secs|
        invariant 0 <= i <= |secs|
        invariant validation' == validation + UnknownWarnings(secs[..i])
      {
        var s := secs[i];
        if !IsKnown(s) {
          validation' := validation' + [(UnknownLabel(s), [WarningMessage(UNKNOWN_SECTION)])];
        }
        assert secs[..i + 1][..i] == secs[..i];
        i := i + 1;
      }
      assert secs[..|secs|] == secs;
    }

    /** The pass that registers the world sections in the dictionary. */
    method RegisterWorlds(secs: seq<RawSection>, configDir: string, env: Env, validation: ValidationMap, ok: bool)
      returns (validation': ValidationMap, ok': bool)
      modifies this`worlds
      ensures WorldsFold(WorldParser(worldGlobal, configDir, env), secs, WorldRegistry(old(worlds), validation, ok))
              == WorldRegistry(worlds, validation', ok')
    {
      ghost var parse := WorldParser(worldGlobal, configDir, env);
      ghost var init := WorldRegistry(worlds, validation, ok);
      validation', ok' := validation, ok;
      var i := 0;
      while i < |secs|
        invariant 0 <= i <= |secs|
        invariant WorldsFold(parse, secs[..i], init) == WorldRegistry(worlds, validation', ok')
      {
        var s := secs[i];
        assert secs[..i + 1][..i] == secs[..i];
        ghost var prev := WorldRegistry(worlds, validation', ok');
        if s.stype == "world" {
          var p := ParseWorld(worldGlobal.(isGlobal := false), s, configDir, env, []);
          assert p == parse(s);
          ok' := p.valid && ok';
          var msgs := p.validation;
          if s.name in worlds {
            msgs := msgs + [WorldNameUsed(s.name)];
            ok' := false;
          } else {
            worlds := worlds[s.name := p.section];
          }
          validation' := validation' + [(WorldLabel(s.name), msgs)];
          assert WorldRegistry(worlds, validation', ok') == WorldStep(parse, s, prev);
        }
        i := i + 1;
      }
      assert secs[..|secs|] == secs;
    }

    /** The pass that appends the map sections to the list. */
    method RegisterMaps(secs: seq<RawSection>, configDir: string, env: Env, validation: ValidationMap, ok: bool)
      returns (validation': ValidationMap, ok': bool)
      modifies this`maps
      ensures MapsFold(MapParser(mapGlobal, configDir, env), secs, MapRegistry(old(maps), validation, ok))
              == MapRegistry(maps, validation', ok')
    {
      ghost var parse := MapParser(mapGlobal, configDir, env);
      ghost var init := MapRegistry(maps, validation, ok);
      validation', ok' := validation, ok;
      var i := 0;
      while i < |secs|
        invariant 0 <= i <= |secs|
        invariant MapsFold(parse, secs[..i], init) == MapRegistry(maps, validation', ok')
      {
        var s := secs[i];
        assert secs[..i + 1][..i] == secs[..i];
        ghost var prev := MapRegistry(maps, validation', ok');
        if s.stype == "map" {
          var p := ParseMap(mapGlobal.(isGlobal := false), s, configDir, env, []);
          assert p == parse(s);
          ok' := p.valid && ok';
          var msgs := p.validation;
          var known := HasMap(s.name);
          if known {
            msgs := msgs + [MapNameUsed(s.name)];
            ok' := false;
          } else {
            maps := maps + [p.section];
          }
          validation' := validation' + [(MapLabel(s.name), msgs)];
          assert MapRegistry(maps, validation', ok') == MapStep(parse, s, prev);
        }
        i := i + 1;
      }
      assert secs[..|secs|] == secs;
    }

    /** hasMap: a linear search of the maps by short name. */
    method HasMap(name: string) returns (b: bool)
      ensures b <==> HasMapIn(maps, name)
    {
      var i := 0;
      while i < |maps|
        invariant 0 <= i <= |maps|
        invariant forall j :: 0 <= j < i ==> maps[j].nameShort != name
      {
        if maps[i].nameShort == name {
          return true;
        }
        i := i + 1;
      }
      return false;
    }

    /** getMap: the first map with this short name; None where the source throws out_of_range. */
    method GetMap(name: string) returns (m: Option<MapSection>)
      ensures m.None? <==> !HasMapIn(maps, name)
      ensures m.Some? ==> m.value.nameShort == name
      ensures m == if MapIndex(maps, name).Some? then Some(maps[MapIndex(maps, name).value]) else None
    {
      var i := 0;
      while i < |maps|
        invariant 0 <= i <= |maps|
        invariant forall j :: 0 <= j < i ==> maps[j].nameShort != name
      {
        if maps[i].nameShort == name {
          return Some(maps[i]);
        }
        i := i + 1;
      }
      return None;
    }
  }
}

=== FILE: config_helper.dfy ===
/**
 * MapcrafterConfigHelper: the run-time companion of a parsed configuration.
 * It keeps the render behaviour of every map and rotation, the zoom levels of
 * worlds and maps and the rotations each world is rendered with, and writes
 * the per-map settings the web template reads.
 */
module ConfigHelper {
  import opened Validation
  import opened Text
  import opened Rotation
  import opened Sections
  import opened ConfigFile
  import opened RenderBehavior

  /** The first j slots set to b, the others as in sl. */
  function Fill(sl: Slots, j: int, b: Behavior): (r: Slots)
    requires 0 <= j <= 4
    ensures forall k :: 0 <= k < 4 ==> r[k] == if k < j then b else sl[k]
  {
    seq(4, k requires 0 <= k < 4 => if k < j then b else sl[k])
  }

  /** The rotation list of the template: each rotation below n in ascending order, each followed by a comma. */
  function RotationList(rs: set<int>, n: nat): string
    requires n <= 4
  {
    if n == 0 then "" else RotationList(rs, n - 1) + (if n - 1 in rs then IntStr(n - 1) + "," else "")
  }

  /** The rotations of rs below n, counted one step at a time. */
  lemma RotationsBelowSnoc(rs: set<int>, n: nat)
    requires 0 < n <= 4
    ensures |set r | r in rs && 0 <= r < n| == |set r | r in rs && 0 <= r < n - 1| + (if n - 1 in rs then 1 else 0)
  {
    var below := set r | r in rs && 0 <= r < n - 1;
    var upTo := set r | r in rs && 0 <= r < n;
    if n - 1 in rs {
      assert upTo == below + {n - 1};
    } else {
      assert upTo == below;
    }
  }

  /** Reading the rotation list back gives the rotations below n, in order. */
  lemma {:induction false} RotationListDigits(rs: set<int>, n: nat)
    requires n <= 4
    ensures forall c :: c in RotationList(rs, n) ==> c == ',' || IsDigit(c)
    ensures |RotationList(rs, n)| == 2 * |set r | r in rs && 0 <= r < n|
  {
    if n > 0 {
      RotationListDigits(rs, n - 1);
      RotationsBelowSnoc(rs, n);
      var prev := RotationList(rs, n - 1);
      if n - 1 in rs {
        var d := DigitChar(n - 1);
        assert IntStr(n - 1) == [d];
        assert RotationList(rs, n) == prev + [d, ','];
      } else {
        assert RotationList(rs, n) == prev;
      }
    }
  }

  /** The rotations recorded for a world, empty if none are. */
  function Used(rotations: map<string, set<int>>, world: string): set<int> {
    if world in rotations then rotations[world] else {}
  }

  /** The table after setUsedRotations. */
  function AddUsed(table: map<string, set<int>>, world: string, rotations: set<int>): map<string, set<int>> {
    if rotations == {} then table else table[world := Used(table, world) + rotations]
  }

  /**
   * setUsedRotations is a monotone union: every world keeps what it had, the
   * given world gains exactly the given rotations, no other world changes, and
   * no entry is created when there is nothing to add.
   */
  lemma AddUsedMonotone(table: map<string, set<int>>, world: string, rotations: set<int>)
    ensures var r := AddUsed(table, world, rotations);
      && (forall w :: Used(table, w) <= Used(r, w))
      && Used(r, world) == Used(table, world) + rotations
      && (forall w :: w != world ==> Used(r, w) == Used(table, w))
      && (world in r <==> world in table || rotations != {})
  {
  }

  /** A non-empty set of rotations has an element to pick. */
  lemma HasElement(s: set<int>)
    requires s != {}
    ensures exists q :: q in s
  {
    if forall q :: q !in s {
      assert false;
    }
  }

  /** Inserting one more rotation: the table of one more rotation added. */
  lemma AddUsedStep(table: map<string, set<int>>, world: string, done: set<int>, r: int)
    ensures var t := AddUsed(table, world, done);
      t[world := Used(t, world) + {r}] == AddUsed(table, world, done + {r})
  {
    var u := Used(table, world);
    var t := AddUsed(table, world, done);
    assert Used(t, world) == u + done;
    assert u + done + {r} == u + (done + {r});
    if done == {} {
      assert done + {r} == {r};
    }
  }

  /** The zoom level of a map: 0 until one is set. */
  function ZoomOf(zooms: map<string, int>, name: string): int {
    if name in zooms then zooms[name] else 0
  }

  /** One map's entry of the template's JavaScript. */
  function MapJs(m: MapSection, worldName: string, zoom: int): string {
    "\"" + m.nameShort + "\" : {\n"
    + "\tname: \"" + m.nameLong + "\",\n"
    + "\tworldName: \"" + worldName + "\",\n"
    + "\ttextureSize: " + IntStr(m.textureSize.value) + ",\n"
    + "\ttileSize: " + IntStr(32 * m.textureSize.value) + ",\n"
    + "\tmaxZoom: " + IntStr(zoom) + ",\n"
    + "\trotations: [" + RotationList(m.rotationsSet, 4) + "],\n"
    + "},"
  }

  /**
   * generateTemplateJavascript on values: the entries of the maps in order;
   * None where getWorld throws because a map's world is not registered.
   */
  function TemplateJs(maps: seq<MapSection>, worlds: map<string, WorldSection>, zooms: map<string, int>,
                      env: Env): Option<string>
  {
    if maps == [] then Some("")
    else match TemplateJs(maps[..|maps| - 1], worlds, zooms, env)
      case None => None
      case Some(js) =>
        var m := maps[|maps| - 1];
        if m.world.value !in worlds then None
        else Some(js + MapJs(m, env.fileName(worlds[m.world.value].inputDir.value), ZoomOf(zooms, m.nameShort)))
  }

  /** Every map names a registered world. */
  predicate WorldsRegistered(maps: seq<MapSection>, worlds: map<string, WorldSection>) {
    forall i :: 0 <= i < |maps| ==> maps[i].world.value in worlds
  }

  lemma WorldsRegisteredSnoc(maps: seq<MapSection>, worlds: map<string, WorldSection>)
    requires maps != []
    ensures WorldsRegistered(maps, worlds) <==>
      WorldsRegistered(maps[..|maps| - 1], worlds) && maps[|maps| - 1].world.value in worlds
  {
    assert forall i :: 0 <= i < |maps| - 1 ==> maps[..|maps| - 1][i] == maps[i];
  }

  lemma TemplateJsStep(maps: seq<MapSection>, worlds: map<string, WorldSection>, zooms: map<string, int>, env: Env)
    requires maps != []
    ensures TemplateJs(maps, worlds, zooms, env).Some? <==>
      TemplateJs(maps[..|maps| - 1], worlds, zooms, env).Some? && maps[|maps| - 1].world.value in worlds
  {
    match TemplateJs(maps[..|maps| - 1], worlds, zooms, env)
    case None =>
    case Some(js) =>
  }

  /** The script is written iff every map's world is registered; world names are not checked by the parse. */
  lemma {:induction false} TemplateJsDefined(maps: seq<MapSection>, worlds: map<string, WorldSection>,
                                             zooms: map<string, int>, env: Env)
    ensures TemplateJs(maps, worlds, zooms, env).Some? <==> WorldsRegistered(maps, worlds)
  {
    if maps != [] {
      TemplateJsDefined(maps[..|maps| - 1], worlds, zooms, env);
      TemplateJsStep(maps, worlds, zooms, env);
      WorldsRegisteredSnoc(maps, worlds);
    }
  }

  /** A map name in a prefix of the list one longer: the old names and the new one. */
  lemma HasMapInSnoc(maps: seq<MapSection>, k: int)
    requires 0 <= k < |maps|
    ensures forall m :: HasMapIn(maps[..k + 1], m) <==> HasMapIn(maps[..k], m) || maps[k].nameShort == m
  {
    var a, b := maps[..k], maps[..k + 1];
    forall m ensures HasMapIn(b, m) <==> HasMapIn(a, m) || maps[k].nameShort == m {
      if HasMapIn(a, m) {
        var j :| 0 <= j < |a| && a[j].nameShort == m;
        assert b[j] == a[j];
      }
      if HasMapIn(b, m) {
        var j :| 0 <= j < |b| && b[j].nameShort == m;
        if j < k { assert a[j] == b[j]; }
      }
      if maps[k].nameShort == m { assert b[k] == maps[k]; }
    }
  }

  class MapcrafterConfigHelper {
    const config: MapcrafterConfigFile
    var renderBehaviors: map<string, Slots>
    var worldZoomlevels: map<string, int>
    var mapZoomlevels: map<string, int>
    var worldRotations: map<string, set<int>>

    /** Every map of the configuration has its slots, and renders only rotations 0 to 3. */
    predicate Valid()
      reads this, config
    {
      && (forall i :: 0 <= i < |config.maps| ==> config.maps[i].nameShort in renderBehaviors)
      && (forall i :: 0 <= i < |config.maps| ==> ValidRotations(config.maps[i].rotationsSet))
    }

    /**
     * The constructor: every map of the configuration starts with RENDER_AUTO in
     * all four slots, every world with zoom level 0.
     */
    constructor(config: MapcrafterConfigFile)
      requires forall i :: 0 <= i < |config.maps| ==> ValidRotations(config.maps[i].rotationsSet)
      ensures this.config == config && Valid()
      ensures forall m :: m in renderBehaviors <==> HasMapIn(config.maps, m)
      ensures forall m :: m in renderBehaviors ==> renderBehaviors[m] == AllSlots(Auto)
      ensures worldZoomlevels.Keys == config.worlds.Keys
      ensures forall w :: w in worldZoomlevels ==> worldZoomlevels[w] == 0
      ensures mapZoomlevels == map[] && worldRotations == map[]
    {
      var maps := config.maps;
      var rb: map<string, Slots> := map[];
      for k := 0 to |maps|
        invariant forall m :: m in rb <==> HasMapIn(maps[..k], m)
        invariant forall m :: m in rb ==> rb[m] == AllSlots(Auto)
      {
        var name := maps[k].nameShort;
        ghost var before := rb;
        for i := 0 to 4
          invariant i == 0 ==> rb == before
          invariant i > 0 ==> rb == before[name := Fill(Entry(before, name), i, Auto)]
        {
          assert Entry(rb, name) == Fill(Entry(before, name), i, Auto);
          assert Fill(Entry(before, name), i, Auto)[i := Auto] == Fill(Entry(before, name), i + 1, Auto);
          rb := rb[name := Entry(rb, name)[i := Auto]];
        }
        assert Fill(Entry(before, name), 4, Auto) == AllSlots(Auto);
        HasMapInSnoc(maps, k);
      }
      assert maps[..|maps|] == maps;

      var zooms: map<string, int> := map[];
      var left := config.worlds.Keys;
      while left != {}
        invariant left <= config.worlds.Keys
        invariant zooms.Keys == config.worlds.Keys - left
        invariant forall w :: w in zooms ==> zooms[w] == 0
        decreases |left|
      {
        var w :| w in left;
        zooms := zooms[w := 0];
        left := left - {w};
      }

      this.config := config;
      renderBehaviors := rb;
      worldZoomlevels := zooms;
      mapZoomlevels := map[];
      worldRotations := map[];
    }

    /** generateTemplateJavascript: one entry per map, in order; None where getWorld throws. */
    method GenerateTemplateJavascript(env: Env) returns (js: Option<string>)
      requires Valid()
      ensures js == TemplateJs(config.maps, config.worlds, mapZoomlevels, env)
    {
      var maps := config.maps;
      var out := "";
      for k := 0 to |maps|
        invariant TemplateJs(maps[..k], config.worlds, mapZoomlevels, env) == Some(out)
      {
        assert maps[..k + 1][..k] == maps[..k];
        var m := maps[k];
        if m.world.value !in config.worlds {
          TemplateJsDefined(maps, config.worlds, mapZoomlevels, env);
          return None;
        }
        var worldName := env.fileName(config.worlds[m.world.value].inputDir.value);
        var entry := "\"" + m.nameShort + "\" : {\n";
        entry := entry + "\tname: \"" + m.nameLong + "\",\n";
        entry := entry + "\tworldName: \"" + worldName + "\",\n";
        entry := entry + "\ttextureSize: " + IntStr(m.textureSize.value) + ",\n";
        entry := entry + "\ttileSize: " + IntStr(32 * m.textureSize.value) + ",\n";
        entry := entry + "\tmaxZoom: " + IntStr(GetMapZoomlevel(m.nameShort)) + ",\n";
        var rotations := RotationListText(m.rotationsSet);
        entry := entry + "\trotations: [" + rotations + "],\n";
        entry := entry + "},";
        out := out + entry;
      }
      assert maps[..|maps|] == maps;
      return Some(out);
    }

    /** The rotation list of one map, ascending. */
    static method RotationListText(rotations: set<int>) returns (text: string)
      ensures text == RotationList(rotations, 4)
    {
      text := "";
      for r := 0 to 4
        invariant text == RotationList(rotations, r)
      {
        if r in rotations {
          text := text + IntStr(r) + ",";
        }
      }
    }

    /** getUsedRotations: the rotations recorded for a world; None where at() throws. */
    function GetUsedRotations(world: string): (r: Option<set<int>>)
      reads this
      ensures r.Some? <==> world in worldRotations
    {
      if world in worldRotations then Some(worldRotations[world]) else None
    }

    /**
     * setUsedRotations: each given rotation is inserted into the world's set,
     * which operator[] creates empty on the first insertion; an empty argument
     * leaves the table as it was.
     */
    method SetUsedRotations(world: string, rotations: set<int>)
      requires Valid()
      modifies this`worldRotations
      ensures Valid()
      ensures worldRotations == AddUsed(old(worldRotations), world, rotations)
    {
      var left := rotations;
      assert rotations - left == {};
      while left != {}
        invariant Valid()
        invariant left <= rotations
        invariant worldRotations == AddUsed(old(worldRotations), world, rotations - left)
        decreases |left|
      {
        HasElement(left);
        var r :| r in left;
        AddUsedStep(old(worldRotations), world, rotations - left, r);
        worldRotations := worldRotations[world := Used(worldRotations, world) + {r}];
        assert rotations - (left - {r}) == (rotations - left) + {r};
        left := left - {r};
      }
      assert rotations - left == rotations;
    }

    /** getWorldZoomlevel: None where at() throws. */
    function GetWorldZoomlevel(world: string): (z: Option<int>)
      reads this
      ensures z.Some? <==> world in worldZoomlevels
    {
      if world in worldZoomlevels then Some(worldZoomlevels[world]) else None
    }

    /** getMapZoomlevel: a map without a zoom level reads 0. */
    function GetMapZoomlevel(name: string): (z: int)
      reads this
      ensures name !in mapZoomlevels ==> z == 0
    {
      ZoomOf(mapZoomlevels, name)
    }

    method SetWorldZoomlevel(world: string, zoomlevel: int)
      requires Valid()
      modifies this`worldZoomlevels
      ensures Valid()
      ensures GetWorldZoomlevel(world) == Some(zoomlevel)
      ensures forall w :: w != world ==> GetWorldZoomlevel(w) == old(GetWorldZoomlevel(w))
    {
      worldZoomlevels := worldZoomlevels[world := zoomlevel];
    }

    method SetMapZoomlevel(name: string, zoomlevel: int)
      requires Valid()
      modifies this`mapZoomlevels
      ensures Valid()
      ensures GetMapZoomlevel(name) == zoomlevel
      ensures forall m :: m != name ==> GetMapZoomlevel(m) == old(GetMapZoomlevel(m))
    {
      mapZoomlevels := mapZoomlevels[name := zoomlevel];
    }

    /** getRenderBehavior: None where at() throws (unknown map, rotation outside 0..3). */
    function GetRenderBehavior(name: string, rotation: int): (b: Option<Behavior>)
      reads this
      ensures b.Some? <==> name in renderBehaviors && 0 <= rotation < 4
    {
      if name in renderBehaviors && 0 <= rotation < 4 then Some(renderBehaviors[name][rotation]) else None
    }

    /** All four slots of a map set to one behaviour, one after the other. */
    method FillAll(name: string, behavior: Behavior)
      requires Valid()
      modifies this`renderBehaviors
      ensures Valid()
      ensures renderBehaviors == old(renderBehaviors)[name := AllSlots(behavior)]
    {
      ghost var before := renderBehaviors;
      for i := 0 to 4
        invariant i == 0 ==> renderBehaviors == before
        invariant i > 0 ==> renderBehaviors == before[name := Fill(Entry(before, name), i, behavior)]
      {
        assert Entry(renderBehaviors, name) == Fill(Entry(before, name), i, behavior);
        assert Fill(Entry(before, name), i, behavior)[i := behavior] == Fill(Entry(before, name), i + 1, behavior);
        renderBehaviors := renderBehaviors[name := Entry(renderBehaviors, name)[i := behavior]];
      }
      assert Fill(Entry(before, name), 4, behavior) == AllSlots(behavior);
    }

    /**
     * setRenderBehavior: rotation -1 sets all four slots, another rotation its own
     * slot; a map without slots gets them first, all RENDER_SKIP.
     */
    method SetRenderBehavior(name: string, rotation: int, behavior: Behavior)
      requires -1 <= rotation < 4
      requires Valid()
      modifies this`renderBehaviors
      ensures Valid()
      ensures forall i :: 0 <= i < 4 ==>
        GetRenderBehavior(name, i) == Some(if rotation == -1 || rotation == i then behavior
                                           else Slot(old(renderBehaviors), name, i))
      ensures forall m, i :: m != name ==> GetRenderBehavior(m, i) == old(GetRenderBehavior(m, i))
    {
      if rotation == -1 {
        FillAll(name, behavior);
      } else {
        renderBehaviors := renderBehaviors[name := Entry(renderBehaviors, name)[rotation := behavior]];
      }
    }

    /** isCompleteRenderSkip / isCompleteRenderForce: every rotation the map renders has this behaviour. */
    method IsCompleteRender(name: string, behavior: Behavior) returns (r: Option<bool>)
      requires Valid()
      ensures r == if HasMapIn(config.maps, name) then Some(CompleteIn(renderBehaviors, config.maps, name, behavior))
                   else None
    {
      var m := config.GetMap(name);
      if m.None? {
        return None;
      }
      var rotations := m.value.rotationsSet;
      assert rotations == MapRotations(config.maps, name);
      assert ValidRotations(rotations) by {
        assert rotations == config.maps[MapIndex(config.maps, name).value].rotationsSet;
      }
      // std::set iterates in ascending order, and the map renders only rotations 0 to 3
      for q := 0 to 4
        invariant forall p :: p in rotations && p < q ==> Slot(renderBehaviors, name, p) == behavior
      {
        if q in rotations && GetRenderBehavior(name, q) != Some(behavior) {
          return Some(false);
        }
      }
      return Some(true);
    }

    method IsCompleteRenderSkip(name: string) returns (r: Option<bool>)
      requires Valid()
      ensures r == if HasMapIn(config.maps, name) then Some(CompleteIn(renderBehaviors, config.maps, name, Skip))
                   else None
    {
      r := IsCompleteRender(name, Skip);
    }

    method IsCompleteRenderForce(name: string) returns (r: Option<bool>)
      requires Valid()
      ensures r == if HasMapIn(config.maps, name) then Some(CompleteIn(renderBehaviors, config.maps, name, Force))
                   else None
    {
      r := IsCompleteRender(name, Force);
    }

    /** One item of a render behaviour list: a loop iteration of setRenderBehaviors. */
    method ApplyOne(name: string, rotation: string, behavior: Behavior) returns (warnings: seq<string>)
      requires Valid()
      modifies this`renderBehaviors
      ensures Valid()
      ensures Applied(renderBehaviors, warnings) ==
        ApplyItem(old(renderBehaviors), config.maps, name, rotation, behavior)
    {
      warnings := [];
      var r := StringToRotation(rotation, ROTATION_NAMES_SHORT);
      var known := config.HasMap(name);
      if !known {
        return [UnknownMap(name)];
      }
      if rotation != "" {
        if r == -1 {
          return [UnknownRotation(rotation)];
        }
        var m := config.GetMap(name);
        assert m.value.rotationsSet == MapRotations(config.maps, name);
        if r !in m.value.rotationsSet {
          return [MissingRotation(name, rotation)];
        }
      }
      if r != -1 {
        renderBehaviors := renderBehaviors[name := Entry(renderBehaviors, name)[r := behavior]];
      } else {
        FillAll(name, behavior);
      }
    }

    /**
     * setRenderBehaviors: applies every item of the list in turn; an unknown map,
     * an unknown rotation or a rotation the map does not render is skipped with
     * a warning, returned here instead of printed.
     */
    method SetRenderBehaviors(maps: string, behavior: Behavior) returns (warnings: seq<string>)
      requires Valid()
      modifies this`renderBehaviors
      ensures Valid()
      ensures Applied(renderBehaviors, warnings) == ApplySpec(old(renderBehaviors), config.maps, maps, behavior)
    {
      var s := maps;
      warnings := [];
      var sp := NextRenderBehaviorSplit(s);
      while sp.more
        invariant Valid()
        invariant sp == NextRenderBehaviorSplit(s)
        invariant var t := ApplySpec(renderBehaviors, config.maps, s, behavior);
          Applied(t.behaviors, warnings + t.warnings) == ApplySpec(old(renderBehaviors), config.maps, maps, behavior)
        decreases |s|
      {
        ghost var a := ApplyItem(renderBehaviors, config.maps, sp.mapName, sp.rotation, behavior);
        ghost var t := ApplySpec(a.behaviors, config.maps, sp.rest, behavior);
        assert ApplySpec(renderBehaviors, config.maps, s, behavior) == Applied(t.behaviors, a.warnings + t.warnings);
        var w := ApplyOne(sp.mapName, sp.rotation, behavior);
        assert renderBehaviors == a.behaviors && w == a.warnings;
        assert warnings + w + t.warnings == warnings + (a.warnings + t.warnings);
        warnings := warnings + w;
        s := sp.rest;
        sp := NextRenderBehaviorSplit(s);
      }
    }

    /**
     * parseRenderBehaviors: the skip list (or, with skip_all, every map's four
     * slots), then the auto list, then the force list.
     */
    method ParseRenderBehaviors(skipAll: bool, renderSkip: string, renderAuto: string, renderForce: string)
      returns (warnings: seq<string>)
      requires Valid()
      modifies this`renderBehaviors
      ensures Valid()
      ensures Applied(renderBehaviors, warnings) ==
        ParseRenderBehaviorsSpec(old(renderBehaviors), config.maps, skipAll, renderSkip, renderAuto, renderForce)
    {
      if !skipAll {
        warnings := SetRenderBehaviors(renderSkip, Skip);
      } else {
        warnings := [];
        var maps := config.maps;
        for i := 0 to |maps|
          invariant Valid()
          invariant renderBehaviors == SkipAllMaps(old(renderBehaviors), maps[..i])
        {
          assert maps[..i + 1][..i] == maps[..i];
          FillAll(maps[i].nameShort, Skip);
        }
        assert maps[..|maps|] == maps;
      }
      var w2 := SetRenderBehaviors(renderAuto, Auto);
      var w3 := SetRenderBehaviors(renderForce, Force);
      warnings := warnings + w2 + w3;
    }
  }
}

=== FILE: render_behavior.dfy ===
/**
 * The render-behaviour mini-language of the command line: a comma-separated
 * list of `map` or `map:rotation` items (rotation in its short form tl, tr,
 * br, bl), applied to a table that holds one behaviour per map and rotation.
 */
module RenderBehavior {
  import opened Validation
  import opened Text
  import opened Rotation
  import opened Sections
  import opened ConfigFile

  /** RENDER_SKIP, RENDER_AUTO and RENDER_FORCE, in their enum order. */
  datatype Behavior = Skip | Auto | Force

  /** The four behaviour slots of one map, indexed by rotation. */
  type Slots = s: seq<Behavior> | |s| == 4 witness [Skip, Skip, Skip, Skip]

  function AllSlots(b: Behavior): Slots { [b, b, b, b] }

  /** The slots of a map; a map not in the table reads as value-initialised slots, all RENDER_SKIP. */
  function Entry(bs: map<string, Slots>, name: string): Slots {
    if name in bs then bs[name] else AllSlots(Skip)
  }

  function Slot(bs: map<string, Slots>, name: string, i: int): Behavior
    requires 0 <= i < 4
  {
    Entry(bs, name)[i]
  }

  // ------------------------------------------------------------ splitting

  /** The outcome of nextRenderBehaviorSplit: whether an item was taken, the text left, and the item's two parts. */
  datatype Split = Split(more: bool, rest: string, mapName: string, rotation: string)

  /**
   * nextRenderBehaviorSplit: takes the text up to the first comma as the item
   * (everything when there is no comma), and splits the item at its first
   * colon into map and rotation (no colon: empty rotation).
   */
  function NextRenderBehaviorSplit(s: string): (r: Split)
    ensures r.more <==> s != []
    ensures !r.more ==> r.rest == "" && r.mapName == "" && r.rotation == ""
    ensures r.more ==> |r.rest| < |s|
  {
    if s == [] then Split(false, "", "", "")
    else
      var comma := IndexOf(s, ',');
      var sub := if comma.Some? then s[..comma.value] else s;
      var rest := if comma.Some? then s[comma.value + 1..] else "";
      match IndexOf(sub, ':')
      case Some(q) => Split(true, rest, sub[..q], sub[q + 1..])
      case None => Split(true, rest, sub, "")
  }

  /**
   * The item runs up to the first comma: the map part holds no comma or colon,
   * the rotation part no comma, and map ":" rotation "," rest gives back the text.
   */
  lemma SplitShape(s: string)
    ensures var r := NextRenderBehaviorSplit(s);
      && ',' !in r.mapName && ',' !in r.rotation && ':' !in r.mapName
      && (r.more ==>
            || s == r.mapName + ":" + r.rotation + "," + r.rest
            || (s == r.mapName + ":" + r.rotation && r.rest == "")
            || (s == r.mapName + "," + r.rest && r.rotation == "")
            || (s == r.mapName && r.rest == "" && r.rotation == ""))
  {
    if s != [] {
      var comma := IndexOf(s, ',');
      var sub := if comma.Some? then s[..comma.value] else s;
      var rest := if comma.Some? then s[comma.value + 1..] else "";
      assert comma.Some? ==> s == sub + "," + rest;
      assert ',' !in sub;
      match IndexOf(sub, ':')
      case Some(q) =>
        assert sub == sub[..q] + ":" + sub[q + 1..];
        assert forall c :: c in sub[q + 1..] ==> c in sub;
      case None =>
    }
  }

  // ------------------------------------------------------------ applying

  /** The rotations of the first map with this short name. */
  function MapRotations(maps: seq<MapSection>, name: string): set<int> {
    match MapIndex(maps, name)
    case Some(k) => maps[k].rotationsSet
    case None => {}
  }

  const UNKNOWN_MAP := "Warning: Unknown map '"
  const UNKNOWN_ROTATION := "Warning: Unknown rotation '"
  const WARNING_MAP := "Warning: Map '"
  const NO_SUCH_ROTATION := "' does not have rotation '"

  function UnknownMap(name: string): string { UNKNOWN_MAP + name + "'." }
  function UnknownRotation(rotation: string): string { UNKNOWN_ROTATION + rotation + "'." }
  function MissingRotation(name: string, rotation: string): string {
    WARNING_MAP + name + NO_SUCH_ROTATION + rotation + "'."
  }

  /** The table after some items, and the warnings printed for the items skipped. */
  datatype Applied = Applied(behaviors: map<string, Slots>, warnings: seq<string>)

  /** An item is applied iff its map exists and its rotation is empty, or a short name the map renders. */
  predicate ValidItem(maps: seq<MapSection>, name: string, rotation: string) {
    && HasMapIn(maps, name)
    && (rotation != "" ==>
          StringToRotation(rotation, ROTATION_NAMES_SHORT) != -1 &&
          StringToRotation(rotation, ROTATION_NAMES_SHORT) in MapRotations(maps, name))
  }

  /** One item of setRenderBehaviors. */
  function ApplyItem(bs: map<string, Slots>, maps: seq<MapSection>, name: string, rotation: string,
                     b: Behavior): (a: Applied)
    ensures a.warnings == [] <==> ValidItem(maps, name, rotation)
    ensures |a.warnings| <= 1
  {
    var r := StringToRotation(rotation, ROTATION_NAMES_SHORT);
    if !HasMapIn(maps, name) then Applied(bs, [UnknownMap(name)])
    else if rotation != "" && r == -1 then Applied(bs, [UnknownRotation(rotation)])
    else if rotation != "" && r !in MapRotations(maps, name) then Applied(bs, [MissingRotation(name, rotation)])
    else if r != -1 then Applied(bs[name := Entry(bs, name)[r := b]], [])
    else Applied(bs[name := AllSlots(b)], [])
  }

  /** setRenderBehaviors on a table: every item in turn, the warnings in item order. */
  function ApplySpec(bs: map<string, Slots>, maps: seq<MapSection>, s: string, b: Behavior): Applied
    decreases |s|
  {
    var sp := NextRenderBehaviorSplit(s);
    if !sp.more then Applied(bs, [])
    else
      var a := ApplyItem(bs, maps, sp.mapName, sp.rotation, b);
      var t := ApplySpec(a.behaviors, maps, sp.rest, b);
      Applied(t.behaviors, a.warnings + t.warnings)
  }

  /** A valid item with this map name that covers slot i: no rotation, or rotation i. */
  predicate ItemTargets(maps: seq<MapSection>, name: string, rotation: string, m: string, i: int) {
    && name == m
    && ValidItem(maps, name, rotation)
    && (rotation == "" || StringToRotation(rotation, ROTATION_NAMES_SHORT) == i)
  }

  /** Some item of s sets slot i of map m. */
  predicate Targets(maps: seq<MapSection>, s: string, m: string, i: int)
    decreases |s|
  {
    var sp := NextRenderBehaviorSplit(s);
    sp.more && (ItemTargets(maps, sp.mapName, sp.rotation, m, i) || Targets(maps, sp.rest, m, i))
  }

  /** Every item of s is applied. */
  predicate AllItemsValid(maps: seq<MapSection>, s: string)
    decreases |s|
  {
    var sp := NextRenderBehaviorSplit(s);
    sp.more ==> ValidItem(maps, sp.mapName, sp.rotation) && AllItemsValid(maps, sp.rest)
  }

  /** One item sets exactly the slots it targets. */
  lemma ApplyItemSlots(bs: map<string, Slots>, maps: seq<MapSection>, name: string, rotation: string, b: Behavior)
    ensures var a := ApplyItem(bs, maps, name, rotation, b);
      forall m, i :: 0 <= i < 4 ==>
        Slot(a.behaviors, m, i) == if ItemTargets(maps, name, rotation, m, i) then b else Slot(bs, m, i)
    ensures var a := ApplyItem(bs, maps, name, rotation, b);
      forall m :: m in a.behaviors <==> m in bs || (m == name && ValidItem(maps, name, rotation))
  {
    var r := StringToRotation(rotation, ROTATION_NAMES_SHORT);
    if rotation == "" {
      assert "" !in ROTATION_NAMES_SHORT;
    }
  }

  /**
   * Applying a behaviour string: a slot takes the behaviour iff some valid item
   * targets it, every other slot keeps its value; a map gains an entry only
   * through a valid item; there is no warning iff every item is valid.
   */
  lemma {:induction false} ApplySlots(bs: map<string, Slots>, maps: seq<MapSection>, s: string, b: Behavior)
    ensures var a := ApplySpec(bs, maps, s, b);
      forall m, i :: 0 <= i < 4 ==> Slot(a.behaviors, m, i) == if Targets(maps, s, m, i) then b else Slot(bs, m, i)
    ensures var a := ApplySpec(bs, maps, s, b);
      forall m :: m in bs ==> m in a.behaviors
    ensures ApplySpec(bs, maps, s, b).warnings == [] <==> AllItemsValid(maps, s)
    decreases |s|
  {
    var sp := NextRenderBehaviorSplit(s);
    if sp.more {
      var a := ApplyItem(bs, maps, sp.mapName, sp.rotation, b);
      ApplyItemSlots(bs, maps, sp.mapName, sp.rotation, b);
      ApplySlots(a.behaviors, maps, sp.rest, b);
    }
  }

  // ------------------------------------------------------ all three lists

  /** skip_all: every map of the configuration gets four RENDER_SKIP slots. */
  function SkipAllMaps(bs: map<string, Slots>, maps: seq<MapSection>): map<string, Slots> {
    if maps == [] then bs
    else SkipAllMaps(bs, maps[..|maps| - 1])[maps[|maps| - 1].nameShort := AllSlots(Skip)]
  }

  lemma {:induction false} SkipAllMapsSlots(bs: map<string, Slots>, maps: seq<MapSection>)
    ensures forall m, i :: 0 <= i < 4 ==>
      Slot(SkipAllMaps(bs, maps), m, i) == if HasMapIn(maps, m) then Skip else Slot(bs, m, i)
  {
    if maps != [] {
      var init := maps[..|maps| - 1];
      SkipAllMapsSlots(bs, init);
      forall m ensures HasMapIn(maps, m) <==> HasMapIn(init, m) || maps[|maps| - 1].nameShort == m {
        if HasMapIn(maps, m) {
          var k :| 0 <= k < |maps| && maps[k].nameShort == m;
          if k < |init| { assert init[k] == maps[k]; }
        }
        if HasMapIn(init, m) {
          var k :| 0 <= k < |init| && init[k].nameShort == m;
          assert maps[k] == init[k];
        }
        if maps[|maps| - 1].nameShort == m {
          assert HasMapIn(maps, m);
        }
      }
      var last := maps[|maps| - 1].nameShort;
      forall m, i | 0 <= i < 4
        ensures Slot(SkipAllMaps(bs, maps), m, i) == if HasMapIn(maps, m) then Skip else Slot(bs, m, i)
      {
        assert SkipAllMaps(bs, maps) == SkipAllMaps(bs, init)[last := AllSlots(Skip)];
        if m == last {
          assert HasMapIn(maps, m);
          assert Entry(SkipAllMaps(bs, maps), m) == AllSlots(Skip);
        } else {
          assert HasMapIn(maps, m) <==> HasMapIn(init, m);
          assert Entry(SkipAllMaps(bs, maps), m) == Entry(SkipAllMaps(bs, init), m);
          assert Slot(SkipAllMaps(bs, init), m, i) == if HasMapIn(init, m) then Skip else Slot(bs, m, i);
        }
      }
    }
  }

  /** skip_all gives an entry to every map of the configuration and keeps every other entry. */
  lemma {:induction false} SkipAllMapsKeys(bs: map<string, Slots>, maps: seq<MapSection>)
    ensures forall m :: m in SkipAllMaps(bs, maps) <==> m in bs || HasMapIn(maps, m)
  {
    if maps != [] {
      var init := maps[..|maps| - 1];
      SkipAllMapsKeys(bs, init);
      forall m ensures HasMapIn(maps, m) <==> HasMapIn(init, m) || maps[|maps| - 1].nameShort == m {
        if HasMapIn(maps, m) {
          var k :| 0 <= k < |maps| && maps[k].nameShort == m;
          if k < |init| { assert init[k] == maps[k]; }
        }
        if HasMapIn(init, m) {
          var k :| 0 <= k < |init| && init[k].nameShort == m;
          assert maps[k] == init[k];
        }
      }
    }
  }

  /**
   * parseRenderBehaviors: the skip list (or skip_all), then the auto list, then
   * the force list, each applied on top of the previous one.
   */
  function ParseRenderBehaviorsSpec(bs: map<string, Slots>, maps: seq<MapSection>, skipAll: bool,
                                    renderSkip: string, renderAuto: string, renderForce: string): Applied
  {
    var s1 := if !skipAll then ApplySpec(bs, maps, renderSkip, Skip) else Applied(SkipAllMaps(bs, maps), []);
    var s2 := ApplySpec(s1.behaviors, maps, renderAuto, Auto);
    var s3 := ApplySpec(s2.behaviors, maps, renderForce, Force);
    Applied(s3.behaviors, s1.warnings + s2.warnings + s3.warnings)
  }

  /**
   * The later list wins: a slot named by the force list is RENDER_FORCE, else one
   * named by the auto list is RENDER_AUTO, else one named by the skip list (or
   * every slot of every map under skip_all) is RENDER_SKIP, else it is unchanged.
   */
  lemma BehaviorPrecedence(bs: map<string, Slots>, maps: seq<MapSection>, skipAll: bool,
                           renderSkip: string, renderAuto: string, renderForce: string)
    ensures var r := ParseRenderBehaviorsSpec(bs, maps, skipAll, renderSkip, renderAuto, renderForce);
      forall m, i :: 0 <= i < 4 ==> (Slot(r.behaviors, m, i) ==
        if Targets(maps, renderForce, m, i) then Force
        else if Targets(maps, renderAuto, m, i) then Auto
        else if (skipAll && HasMapIn(maps, m)) || (!skipAll && Targets(maps, renderSkip, m, i)) then Skip
        else Slot(bs, m, i))
  {
    var s1 := if !skipAll then ApplySpec(bs, maps, renderSkip, Skip) else Applied(SkipAllMaps(bs, maps), []);
    if !skipAll {
      ApplySlots(bs, maps, renderSkip, Skip);
    } else {
      SkipAllMapsSlots(bs, maps);
    }
    var s2 := ApplySpec(s1.behaviors, maps, renderAuto, Auto);
    ApplySlots(s1.behaviors, maps, renderAuto, Auto);
    ApplySlots(s2.behaviors, maps, renderForce, Force);
  }

  /** Every rotation the map renders has behaviour b (isCompleteRenderSkip / isCompleteRenderForce). */
  predicate CompleteIn(bs: map<string, Slots>, maps: seq<MapSection>, m: string, b: Behavior) {
    forall r :: r in MapRotations(maps, m) ==> 0 <= r < 4 && Slot(bs, m, r) == b
  }

  /** A map whose every rotation is named by the force list is completely forced. */
  lemma ForceCompletes(bs: map<string, Slots>, maps: seq<MapSection>, skipAll: bool,
                       renderSkip: string, renderAuto: string, renderForce: string, m: string)
    requires ValidRotations(MapRotations(maps, m))
    requires forall r :: r in MapRotations(maps, m) ==> 0 <= r < 4 && Targets(maps, renderForce, m, r)
    ensures CompleteIn(ParseRenderBehaviorsSpec(bs, maps, skipAll, renderSkip, renderAuto, renderForce).behaviors,
                       maps, m, Force)
  {
    BehaviorPrecedence(bs, maps, skipAll, renderSkip, renderAuto, renderForce);
  }

  /** With skip_all and no other list, every map of the configuration is completely skipped. */
  lemma SkipAllCompletes(bs: map<string, Slots>, maps: seq<MapSection>, m: string)
    requires HasMapIn(maps, m)
    requires ValidRotations(MapRotations(maps, m))
    ensures CompleteIn(ParseRenderBehaviorsSpec(bs, maps, true, "", "", "").behaviors, maps, m, Skip)
  {
    BehaviorPrecedence(bs, maps, true, "", "", "");
    assert !NextRenderBehaviorSplit("").more;
  }

  // ------------------------------------------------------------- examples

  function ExampleMap(): MapSection {
    NewMapSection(false).(nameShort := "M", nameLong := "M", rotationsSet := {0, 2})
  }

  /** "M:tl" forces the top-left slot of map M and nothing else, without a warning. */
  lemma ExampleShortRotation()
    ensures var a := ApplySpec(map["M" := AllSlots(Auto)], [ExampleMap()], "M:tl", Force);
      a.warnings == [] && a.behaviors == map["M" := [Force, Auto, Auto, Auto]]
  {
    var s := "M:tl";
    assert IndexOf(s, ',') == None;
    assert IndexOf(s, ':') == Some(1);
    assert s[..1] == "M" && s[2..] == "tl";
    var sp := NextRenderBehaviorSplit(s);
    assert sp == Split(true, "", "M", "tl");
    assert StringToRotation("tl", ROTATION_NAMES_SHORT) == 0;
    assert HasMapIn([ExampleMap()], "M") by { assert [ExampleMap()][0].nameShort == "M"; }
    assert MapIndex([ExampleMap()], "M") == Some(0);
    assert AllSlots(Auto)[0 := Force] == [Force, Auto, Auto, Auto];
    assert !NextRenderBehaviorSplit("").more;
  }

  /** "M:0" names no short rotation: one warning and the table is unchanged. */
  lemma ExampleNumericRotation()
    ensures var a := ApplySpec(map["M" := AllSlots(Auto)], [ExampleMap()], "M:0", Force);
      a.warnings == [UnknownRotation("0")] && a.behaviors == map["M" := AllSlots(Auto)]
  {
    var s := "M:0";
    assert IndexOf(s, ',') == None;
    assert IndexOf(s, ':') == Some(1);
    assert s[..1] == "M" && s[2..] == "0";
    var sp := NextRenderBehaviorSplit(s);
    assert sp == Split(true, "", "M", "0");
    assert StringToRotation("0", ROTATION_NAMES_SHORT) == -1;
    assert HasMapIn([ExampleMap()], "M") by { assert [ExampleMap()][0].nameShort == "M"; }
    assert !NextRenderBehaviorSplit("").more;
  }
}

=== FILE: rotation.dfy ===
/**
 * Rotations: the two name tables, stringToRotation, the token loop of
 * MapSection::parse that turns the `rotations` option into a set, and
 * rotationsToString, which writes such a set back as text.
 */
module Rotation {
  import opened Validation
  import opened Text

  /** Canonical rotation names; a rotation is its index, 0 to 3. */
  const ROTATION_NAMES: seq<string> := ["top-left", "top-right", "bottom-right", "bottom-left"]

  /** The short forms accepted by the render-behaviour mini-language. */
  const ROTATION_NAMES_SHORT: seq<string> := ["tl", "tr", "br", "bl"]

  /** First index at or after i where names holds s, else -1. */
  function IndexFrom(s: string, names: seq<string>, i: nat): (r: int)
    requires i <= |names|
    ensures r == -1 <==> s !in names[i..]
    ensures r != -1 ==> i <= r < |names| && names[r] == s && s !in names[i..r]
    decreases |names| - i
  {
    if i == |names| then -1
    else if names[i] == s then i
    else
      assert names[i..] == [names[i]] + names[i + 1..];
      var r := IndexFrom(s, names, i + 1);
      assert r != -1 ==> names[i..r] == [names[i]] + names[i + 1..r];
      r
  }

  /** stringToRotation: the index of s in a name table, or -1 when it is not there. */
  function StringToRotation(s: string, names: seq<string>): (r: int)
    ensures -1 <= r < |names|
    ensures r == -1 <==> s !in names
    ensures r != -1 ==> names[r] == s
  {
    assert names[0..] == names;
    IndexFrom(s, names, 0)
  }

  /** The rotations named by the valid tokens among ws. */
  function TokenRotations(ws: seq<string>): set<int> {
    if ws == [] then {}
    else
      var r := StringToRotation(ws[|ws| - 1], ROTATION_NAMES);
      TokenRotations(ws[..|ws| - 1]) + (if r == -1 then {} else {r})
  }

  /** A rotation is collected iff its canonical name is among the tokens. */
  lemma {:induction false} TokenRotationsMembers(ws: seq<string>)
    ensures forall r :: r in TokenRotations(ws) <==> 0 <= r < 4 && ROTATION_NAMES[r] in ws
  {
    if ws != [] {
      var init, w := ws[..|ws| - 1], ws[|ws| - 1];
      TokenRotationsMembers(init);
      assert ws == init + [w];
      forall r | 0 <= r < 4
        ensures ROTATION_NAMES[r] in ws <==> ROTATION_NAMES[r] in init || ROTATION_NAMES[r] == w
      {
        assert ROTATION_NAMES[r] in init + [w] <==> ROTATION_NAMES[r] in init || ROTATION_NAMES[r] == w;
      }
    }
  }

  /** Every token is a canonical rotation name. */
  predicate KnownRotations(ws: seq<string>) {
    forall i :: 0 <= i < |ws| ==> ws[i] in ROTATION_NAMES
  }

  /** Every rotation of the set is one of the four, 0 to 3. */
  predicate ValidRotations(rs: set<int>) {
    forall r :: r in rs ==> 0 <= r < 4
  }

  /** The tokens only ever name rotations 0 to 3. */
  lemma TokenRotationsRange(ws: seq<string>)
    ensures ValidRotations(TokenRotations(ws))
  {
    TokenRotationsMembers(ws);
  }

  const INVALID_ROTATION := "Invalid rotation '"

  function InvalidRotation(token: string): Message {
    ErrorMessage(INVALID_ROTATION + token + "'!")
  }

  /** One "Invalid rotation" error per token outside the name table, in token order. */
  function RotationErrors(ws: seq<string>): ValidationList {
    if ws == [] then []
    else
      var last := ws[|ws| - 1];
      RotationErrors(ws[..|ws| - 1])
        + (if StringToRotation(last, ROTATION_NAMES) == -1 then [InvalidRotation(last)] else [])
  }

  /** Only errors, at most one per token, and none iff every token is a rotation name. */
  lemma {:induction false} RotationErrorsShape(ws: seq<string>)
    ensures AllErrors(RotationErrors(ws))
    ensures |RotationErrors(ws)| <= |ws|
    ensures RotationErrors(ws) == [] <==> KnownRotations(ws)
  {
    if ws != [] {
      var init := ws[..|ws| - 1];
      RotationErrorsShape(init);
      assert forall i :: 0 <= i < |init| ==> init[i] == ws[i];
      var prev := RotationErrors(init);
      var tail: ValidationList :=
        if StringToRotation(ws[|ws| - 1], ROTATION_NAMES) == -1 then [InvalidRotation(ws[|ws| - 1])] else [];
      assert RotationErrors(ws) == prev + tail;
      forall i | 0 <= i < |prev + tail| ensures (prev + tail)[i].kind == Error {
        if i < |prev| { assert (prev + tail)[i] == prev[i]; }
      }
    }
  }

  lemma AppendAssoc(a: ValidationList, b: ValidationList, c: ValidationList)
    ensures a + (b + c) == a + b + c
  {
  }

  lemma UnionAssoc(a: set<int>, b: set<int>, c: set<int>)
    ensures a + (b + c) == a + b + c
  {
  }

  /** One more token: its rotation joins the set, or its error joins the list. */
  lemma TokenStep(ws: seq<string>, i: nat)
    requires i < |ws|
    ensures StringToRotation(ws[i], ROTATION_NAMES) != -1 ==>
      TokenRotations(ws[..i + 1]) == TokenRotations(ws[..i]) + {StringToRotation(ws[i], ROTATION_NAMES)} &&
      RotationErrors(ws[..i + 1]) == RotationErrors(ws[..i])
    ensures StringToRotation(ws[i], ROTATION_NAMES) == -1 ==>
      TokenRotations(ws[..i + 1]) == TokenRotations(ws[..i]) &&
      RotationErrors(ws[..i + 1]) == RotationErrors(ws[..i]) + [InvalidRotation(ws[i])]
  {
    assert ws[..i + 1][..i] == ws[..i];
  }

  /**
   * The loop over the words of the `rotations` option: every known name adds its
   * rotation to the set, every other word adds one error, and the scan always
   * reaches the last word.
   */
  method ParseRotationTokens(words: seq<string>, rotations: set<int>, validation: ValidationList)
    returns (rotations': set<int>, validation': ValidationList)
    ensures rotations' == rotations + TokenRotations(words)
    ensures validation' == validation + RotationErrors(words)
  {
    rotations', validation' := rotations, validation;
    var i := 0;
    while i < |words|
      invariant 0 <= i <= |words|
      invariant rotations' == rotations + TokenRotations(words[..i])
      invariant validation' == validation + RotationErrors(words[..i])
    {
      var elem := words[i];
      var r := StringToRotation(elem, ROTATION_NAMES);
      TokenStep(words, i);
      if r != -1 {
        UnionAssoc(rotations, TokenRotations(words[..i]), {r});
        rotations' := rotations' + {r};
      } else {
        AppendAssoc(validation, RotationErrors(words[..i]), [InvalidRotation(elem)]);
        validation' := validation' + [InvalidRotation(elem)];
      }
      i := i + 1;
    }
    assert words[..|words|] == words;
  }


  /** The names of the rotations below n that rs holds, in ascending order. */
  function NamesBelow(rs: set<int>, n: nat): seq<string>
    requires n <= 4
  {
    if n == 0 then []
    else NamesBelow(rs, n - 1) + (if n - 1 in rs then [ROTATION_NAMES[n - 1]] else [])
  }

  /** The names of the rotations in rs, in the ascending order a std::set iterates them. */
  function RotationNames(rs: set<int>): seq<string> {
    NamesBelow(rs, 4)
  }

  /** What rotationsToString returns: the names of rs joined by single spaces. */
  function RotationsText(rs: set<int>): string {
    Join(RotationNames(rs))
  }

  /** Each name prefixed by one space, as the loop of rotationsToString builds it. */
  function Spaced(ws: seq<string>): string {
    if ws == [] then "" else Spaced(ws[..|ws| - 1]) + " " + ws[|ws| - 1]
  }

  /** Every canonical rotation name is a single word. */
  lemma RotationNamesAreWords()
    ensures forall w :: w in ROTATION_NAMES ==> IsWord(w)
  {
    forall w | w in ROTATION_NAMES ensures IsWord(w) {
      assert w == "top-left" || w == "top-right" || w == "bottom-right" || w == "bottom-left";
    }
  }

  lemma {:induction false} NamesBelowWords(rs: set<int>, n: nat)
    requires n <= 4
    ensures forall i :: 0 <= i < |NamesBelow(rs, n)| ==> IsWord(NamesBelow(rs, n)[i])
    ensures forall i :: 0 <= i < |NamesBelow(rs, n)| ==> NamesBelow(rs, n)[i] in ROTATION_NAMES[..n]
    ensures forall r :: 0 <= r < 4 ==> (ROTATION_NAMES[r] in NamesBelow(rs, n) <==> r < n && r in rs)
  {
    if n > 0 {
      NamesBelowWords(rs, n - 1);
      RotationNamesAreWords();
      var prev := NamesBelow(rs, n - 1);
      var tail: seq<string> := if n - 1 in rs then [ROTATION_NAMES[n - 1]] else [];
      assert NamesBelow(rs, n) == prev + tail;
      forall i | 0 <= i < |prev + tail| ensures (prev + tail)[i] in ROTATION_NAMES[..n] {
        if i < |prev| {
          assert (prev + tail)[i] == prev[i];
          assert prev[i] in ROTATION_NAMES[..n - 1];
        } else {
          assert (prev + tail)[i] == ROTATION_NAMES[n - 1];
        }
      }
      forall r | 0 <= r < 4
        ensures ROTATION_NAMES[r] in prev + tail <==> r < n && r in rs
      {
        assert ROTATION_NAMES[r] in prev + tail <==> ROTATION_NAMES[r] in prev || ROTATION_NAMES[r] in tail;
      }
    }
  }

  lemma {:induction false} JoinSnoc(ws: seq<string>, w: string)
    requires ws != []
    ensures Join(ws + [w]) == Join(ws) + " " + w
  {
    if |ws| == 1 {
      assert ws + [w] == [ws[0], w];
    } else {
      assert (ws + [w])[1..] == ws[1..] + [w];
      JoinSnoc(ws[1..], w);
    }
  }

  lemma {:induction false} SpacedJoin(ws: seq<string>)
    requires ws != []
    ensures Spaced(ws) == " " + Join(ws)
  {
    if |ws| == 1 {
      assert ws[..0] == [];
    } else {
      var init := ws[..|ws| - 1];
      SpacedJoin(init);
      JoinSnoc(init, ws[|ws| - 1]);
      assert init + [ws[|ws| - 1]] == ws;
    }
  }

  lemma {:induction false} JoinEnds(ws: seq<string>)
    requires ws != []
    requires forall i :: 0 <= i < |ws| ==> IsWord(ws[i])
    ensures Join(ws) != [] && !IsSpace(Join(ws)[0]) && !IsSpace(Join(ws)[|Join(ws)| - 1])
  {
    if |ws| > 1 {
      JoinEnds(ws[1..]);
      var j := Join(ws[1..]);
      assert Join(ws) == ws[0] + " " + j;
      assert Join(ws)[|Join(ws)| - 1] == j[|j| - 1];
    }
  }

  /** Trimming the space-prefixed list of words gives the words joined by spaces. */
  lemma TrimSpaced(ws: seq<string>)
    requires forall i :: 0 <= i < |ws| ==> IsWord(ws[i])
    ensures Trim(Spaced(ws)) == Join(ws)
  {
    if ws != [] {
      var j := Join(ws);
      SpacedJoin(ws);
      JoinEnds(ws);
      assert (" " + j)[1..] == j;
      assert TrimLeft(" " + j) == TrimLeft(j) == j;
      assert TrimRight(j) == j;
    }
  }

  /**
   * rotationsToString: the names of the rotations in the set (those in 0..3,
   * ascending), each appended after a space, then trimmed.
   */
  method RotationsToString(rotations: set<int>) returns (str: string)
    ensures str == RotationsText(rotations)
  {
    str := "";
    for r := 0 to 4
      invariant str == Spaced(NamesBelow(rotations, r))
    {
      ghost var names := NamesBelow(rotations, r);
      if r in rotations {
        assert NamesBelow(rotations, r + 1) == names + [ROTATION_NAMES[r]];
        SpacedSnoc(names, ROTATION_NAMES[r]);
        str := str + " " + ROTATION_NAMES[r];
      } else {
        assert NamesBelow(rotations, r + 1) == names + [] == names;
      }
    }
    TrimSpacedNames(rotations);
    str := Trim(str);
  }

  /** One more name: Spaced grows by a space and the name. */
  lemma SpacedSnoc(ws: seq<string>, w: string)
    ensures Spaced(ws + [w]) == Spaced(ws) + " " + w
  {
    assert (ws + [w])[..|ws|] == ws;
  }

  /** Trimming the spaced names of a set gives the text rotationsToString returns. */
  lemma TrimSpacedNames(rs: set<int>)
    ensures Trim(Spaced(NamesBelow(rs, 4))) == RotationsText(rs)
  {
    NamesBelowWords(rs, 4);
    TrimSpaced(RotationNames(rs));
  }

  lemma TokenRotationsOfNames(rs: set<int>, names: seq<string>)
    requires forall r :: 0 <= r < 4 ==> (ROTATION_NAMES[r] in names <==> r in rs)
    ensures TokenRotations(names) == rs * {0, 1, 2, 3}
  {
    TokenRotationsMembers(names);
    forall r ensures r in TokenRotations(names) <==> r in rs * {0, 1, 2, 3} {
      if 0 <= r < 4 {
        assert ROTATION_NAMES[r] in names <==> r in rs;
      } else {
        assert r !in TokenRotations(names);
      }
    }
  }

  /**
   * Writing a rotation set as text and reading the text back as the `rotations`
   * option gives back the set (restricted to 0..3) and no error.
   */
  lemma RotationsRoundTrip(rs: set<int>)
    ensures Words(RotationsText(rs)) == RotationNames(rs)
    ensures TokenRotations(Words(RotationsText(rs))) == rs * {0, 1, 2, 3}
    ensures RotationErrors(Words(RotationsText(rs))) == []
  {
    var names := RotationNames(rs);
    NamesBelowWords(rs, 4);
    WordsOfJoin(names);
    assert Words(RotationsText(rs)) == names;
    TokenRotationsOfNames(rs, names);
    assert RotationErrors(names) == [] by {
      assert ROTATION_NAMES[..4] == ROTATION_NAMES;
      RotationErrorsShape(names);
    }
  }

  const EXAMPLE_ROTATIONS := "top-left bogus bottom-right"

  /** The option text splits into its three tokens. */
  lemma ExampleWords()
    ensures Words(EXAMPLE_ROTATIONS) == ["top-left", "bogus", "bottom-right"]
  {
    var ws := ["top-left", "bogus", "bottom-right"];
    assert IsWord(ws[0]) && IsWord(ws[1]) && IsWord(ws[2]);
    assert ws[1..][1..] == ["bottom-right"];
    assert Join(ws) == EXAMPLE_ROTATIONS;
    WordsOfJoin(ws);
  }

  /** The option "top-left bogus bottom-right": three tokens, two rotations and one error, for "bogus". */
  lemma RotationExample()
    ensures Words(EXAMPLE_ROTATIONS) == ["top-left", "bogus", "bottom-right"]
    ensures TokenRotations(Words(EXAMPLE_ROTATIONS)) == {0, 2}
    ensures RotationErrors(Words(EXAMPLE_ROTATIONS)) == [InvalidRotation("bogus")]
  {
    ExampleWords();
    ExampleTokens();
  }

  /** The three tokens of the example give rotations 0 and 2 and one error. */
  lemma ExampleTokens()
    ensures TokenRotations(["top-left", "bogus", "bottom-right"]) == {0, 2}
    ensures RotationErrors(["top-left", "bogus", "bottom-right"]) == [InvalidRotation("bogus")]
  {
    var ws := ["top-left", "bogus", "bottom-right"];
    assert ws[..2] == ["top-left", "bogus"] && ws[..2][..1] == ["top-left"];
    assert ws[..2][..1][..0] == [];
    TokenRotationsMembers(ws);
    assert ROTATION_NAMES[1] !in ws && ROTATION_NAMES[3] !in ws;
    assert StringToRotation("top-left", ROTATION_NAMES) == 0;
    assert StringToRotation("bogus", ROTATION_NAMES) == -1;
    assert StringToRotation("bottom-right", ROTATION_NAMES) == 2;
    assert RotationErrors(ws[..2][..1]) == [];
    assert RotationErrors(ws[..2]) == [InvalidRotation("bogus")];
    forall r ensures r in TokenRotations(ws) <==> r in {0, 2} {
    }
  }
}

=== FILE: sections.dfy ===
/**
 * The two section schemas, WorldSection and MapSection, and their parse
 * routines. Sections are values: the file parser copies the global template
 * and parses a section on top of the copy, and stores the result by value.
 */
module Sections {
  import opened Validation
  import opened Text
  import opened Rotation

  /**
   * What the parsers ask of the outside world. Filesystem queries and the
   * directory auto-discovery are parameters, not path logic.
   */
  datatype Env = Env(
    isDirectory: string -> bool,          // fs::is_directory
    absolute: (string, string) -> string, // BOOST_FS_ABSOLUTE(path, base)
    parentPath: string -> string,         // fs::path(filename).parent_path()
    fileName: string -> string,           // BOOST_FS_FILENAME
    foundTextureDir: string,              // util::findTextureDir(), "" when none
    foundTemplateDir: string)             // util::findTemplateDir(), "" when none

  /** A section as the INI reader delivers it: `[type:name]` and its entries. */
  datatype RawSection = RawSection(stype: string, name: string, entries: Entries) {
    function NameType(): string { stype + ":" + name }
  }

  const MUST_BE_DIRECTORY := "' must be an existing directory! '"
  const DOES_NOT_EXIST := "' does not exist!"

  function NotADirectory(key: string, path: string): Message {
    ErrorMessage("'" + key + MUST_BE_DIRECTORY + path + DOES_NOT_EXIST)
  }

  // ---------------------------------------------------------------- worlds

  datatype WorldSection = WorldSection(isGlobal: bool, inputDir: Field<string>)

  function NewWorldSection(global: bool): WorldSection {
    WorldSection(global, Field("", false))
  }

  /** The section after parsing, its diagnostics and the returned success flag. */
  datatype WorldParse = WorldParse(section: WorldSection, validation: ValidationList, valid: bool)

  const INPUT_DIR_REQUIRED := "You have to specify an input directory ('input_dir')!"

  /**
   * WorldSection::parse: a present input_dir is resolved against the directory of
   * the configuration file and must be an existing directory; a section that is not
   * the global template must end up with an input_dir, its own or inherited.
   */
  function ParseWorld(w: WorldSection, sec: RawSection, configDir: string, env: Env,
                      v: ValidationList): (r: WorldParse)
    ensures r.section.isGlobal == w.isGlobal
    ensures Extends(v, r.validation)
    ensures "input_dir" in sec.entries ==>
      r.section.inputDir == Field(env.absolute(sec.entries["input_dir"], configDir), true)
    ensures "input_dir" !in sec.entries ==> r.section.inputDir == w.inputDir
    ensures r.valid <==> IsValidationValid(r.validation)
    ensures r.valid <==>
      && IsValidationValid(v)
      && ("input_dir" in sec.entries ==> env.isDirectory(r.section.inputDir.value))
      && (w.isGlobal || r.section.inputDir.loaded)
  {
    var e := sec.entries;
    var inputDir :=
      if "input_dir" in e then SetValue(LoadString(w.inputDir, e, "input_dir"), env.absolute(e["input_dir"], configDir))
      else w.inputDir;
    var v1 :=
      if "input_dir" in e && !env.isDirectory(inputDir.value) then v + [NotADirectory("input_dir", inputDir.value)]
      else v;
    var v2 := if !w.isGlobal then Require(inputDir, v1, INPUT_DIR_REQUIRED) else v1;
    AppendError(v, NotADirectory("input_dir", inputDir.value));
    assert IsValidationValid(v1) <==>
      IsValidationValid(v) && ("input_dir" in e ==> env.isDirectory(inputDir.value));
    ExtendsTrans(v, v1, v2);
    WorldParse(w.(inputDir := inputDir), v2, IsValidationValid(v2))
  }

  // ------------------------------------------------------------------ maps

  datatype MapSection = MapSection(
    isGlobal: bool,
    nameShort: string,
    nameLong: string,
    world: Field<string>,
    textureDir: Field<string>,
    rotations: Field<string>,
    rotationsSet: set<int>,
    rendermode: Field<string>,
    textureSize: Field<int>,
    renderUnknownBlocks: Field<bool>,
    renderLeavesTransparent: Field<bool>,
    renderBiomes: Field<bool>,
    useImageTimestamps: Field<bool>)

  function NewMapSection(global: bool): MapSection {
    MapSection(global, "", "", Field("", false), Field("", false), Field("", false), {},
               Field("", false), Field(0, false),
               Field(false, false), Field(false, false), Field(false, false), Field(false, false))
  }

  datatype MapParse = MapParse(section: MapSection, validation: ValidationList, valid: bool)

  const RENDERMODES: seq<string> := ["normal", "daylight", "nightlight", "cave"]

  const RENDERMODE_INVALID := "'rendermode' must be one of: normal, daylight, nightlight, cave"
  const TEXTURE_SIZE_INVALID := "'texture_size' must a number between 1 and 32!"
  const TEXTURE_DIR_REQUIRED := "You have to specify a texture directory ('texture_dir')!"
  const WORLD_REQUIRED := "You have to specify a world ('world')!"

  /** The rendermode check: one error unless the mode is one of the four names. */
  function RendermodeErrors(mode: string): (errs: ValidationList)
    ensures errs == [] <==> mode in RENDERMODES
    ensures |errs| <= 1 && AllErrors(errs)
  {
    if mode != "normal" && mode != "daylight" && mode != "nightlight" && mode != "cave" then
      [ErrorMessage(RENDERMODE_INVALID)]
    else []
  }

  /** The texture_size check: one error unless 1 <= size <= 32. */
  function TextureSizeErrors(size: int): (errs: ValidationList)
    ensures errs == [] <==> 1 <= size <= 32
    ensures |errs| <= 1 && AllErrors(errs)
  {
    if size <= 0 || size > 32 then [ErrorMessage(TEXTURE_SIZE_INVALID)]
    else []
  }

  /**
   * The texture_dir step: a present key is resolved and must be a directory;
   * otherwise the auto-discovered directory is taken; otherwise a section that is
   * not the global template must already hold one.
   */
  function TextureDir(f: Field<string>, global: bool, e: Entries, configDir: string, env: Env,
                      v: ValidationList): (r: Loaded<string>)
    ensures Extends(v, r.validation)
    ensures "texture_dir" in e ==> r.field == Field(env.absolute(e["texture_dir"], configDir), true)
    ensures "texture_dir" !in e && env.foundTextureDir != "" ==> r.field == Field(env.foundTextureDir, true)
    ensures "texture_dir" !in e && env.foundTextureDir == "" ==> r.field == f
    ensures "texture_dir" in e && !env.isDirectory(r.field.value) ==>
      r.validation == v + [NotADirectory("texture_dir", r.field.value)]
    ensures "texture_dir" !in e && env.foundTextureDir == "" && !global && !f.loaded ==>
      r.validation == v + [ErrorMessage(TEXTURE_DIR_REQUIRED)]
    ensures IsValidationValid(r.validation) <==>
      && IsValidationValid(v)
      && ("texture_dir" in e ==> env.isDirectory(r.field.value))
      && (global || r.field.loaded)
  {
    AppendError(v, NotADirectory("texture_dir", if "texture_dir" in e then env.absolute(e["texture_dir"], configDir) else ""));
    if "texture_dir" in e then
      var path := env.absolute(e["texture_dir"], configDir);
      Loaded(Field(path, true), if env.isDirectory(path) then v else v + [NotADirectory("texture_dir", path)], true)
    else if env.foundTextureDir != "" then
      Loaded(SetValue(f, env.foundTextureDir), v, true)
    else if !global then
      Loaded(f, Require(f, v, TEXTURE_DIR_REQUIRED), f.loaded)
    else
      Loaded(f, v, f.loaded)
  }

  const FLAG_KEYS: seq<string> :=
    ["render_unkown_blocks", "render_leaves_transparent", "render_biomes", "use_image_timestamps"]

  /** Every boolean option that is present reads as a boolean. */
  predicate FlagsParse(e: Entries) {
    forall k :: k in FLAG_KEYS && k in e ==> ParseBool(e[k]).Some?
  }

  /**
   * A boolean option loaded with a default: an absent key gives the default to a
   * field that was not loaded before, a key that reads as a boolean sets the
   * value, and one that does not leaves the field as it was.
   */
  predicate FlagLoaded(before: Field<bool>, e: Entries, key: string, default: bool, after: Field<bool>) {
    if key !in e then after == (if before.loaded then before else Field(default, true))
    else if ParseBool(e[key]).Some? then after == Field(ParseBool(e[key]).value, true)
    else after == before
  }

  /** The four boolean options after loading, and the diagnostics. */
  datatype Flags = Flags(
    renderUnknownBlocks: Field<bool>,
    renderLeavesTransparent: Field<bool>,
    renderBiomes: Field<bool>,
    useImageTimestamps: Field<bool>,
    validation: ValidationList)

  /** The four boolean options with their defaults; the first key is spelled as the source spells it. */
  function LoadFlags(m: MapSection, e: Entries, v: ValidationList): (r: Flags)
    ensures FlagLoaded(m.renderUnknownBlocks, e, "render_unkown_blocks", false, r.renderUnknownBlocks)
    ensures FlagLoaded(m.renderLeavesTransparent, e, "render_leaves_transparent", true, r.renderLeavesTransparent)
    ensures FlagLoaded(m.renderBiomes, e, "render_biomes", true, r.renderBiomes)
    ensures FlagLoaded(m.useImageTimestamps, e, "use_image_timestamps", true, r.useImageTimestamps)
    ensures Extends(v, r.validation)
    ensures IsValidationValid(r.validation) <==> IsValidationValid(v) && FlagsParse(e)
  {
    var a := LoadOr(m.renderUnknownBlocks, v, e, "render_unkown_blocks", false, ParseBool);
    var b := LoadOr(m.renderLeavesTransparent, a.validation, e, "render_leaves_transparent", true, ParseBool);
    var c := LoadOr(m.renderBiomes, b.validation, e, "render_biomes", true, ParseBool);
    var d := LoadOr(m.useImageTimestamps, c.validation, e, "use_image_timestamps", true, ParseBool);
    Flags(a.field, b.field, c.field, d.field, d.validation)
  }

  /** The rotations option and the rotation set it leaves, with the diagnostics. */
  datatype RotationsLoaded = RotationsLoaded(field: Field<string>, set_: set<int>, validation: ValidationList)

  /**
   * The rotations step: the option is loaded with default "top-left", and each of
   * its words either adds its rotation to the inherited set or raises one error.
   */
  function LoadRotations(m: MapSection, e: Entries, v: ValidationList): (r: RotationsLoaded)
    ensures r.field == LoadStringOr(m.rotations, e, "rotations", "top-left")
    ensures r.set_ == m.rotationsSet + TokenRotations(Words(r.field.value))
    ensures r.validation == v + RotationErrors(Words(r.field.value))
    ensures Extends(v, r.validation)
    ensures IsValidationValid(r.validation) <==> IsValidationValid(v) && KnownRotations(Words(r.field.value))
  {
    var field := LoadStringOr(m.rotations, e, "rotations", "top-left");
    var errs := RotationErrors(Words(field.value));
    RotationErrorsShape(Words(field.value));
    ValidAppend(v, errs);
    ErrorsValid(errs);
    RotationsLoaded(field, m.rotationsSet + TokenRotations(Words(field.value)), v + errs)
  }

  /** The rendermode step: loaded with default "normal", then checked against the four modes. */
  function LoadRendermode(m: MapSection, e: Entries, v: ValidationList): (r: Loaded<string>)
    ensures r.field == LoadStringOr(m.rendermode, e, "rendermode", "normal")
    ensures Extends(v, r.validation)
    ensures IsValidationValid(r.validation) <==> IsValidationValid(v) && r.field.value in RENDERMODES
  {
    var field := LoadStringOr(m.rendermode, e, "rendermode", "normal");
    var errs := RendermodeErrors(field.value);
    ValidAppend(v, errs);
    ErrorsValid(errs);
    Loaded(field, v + errs, true)
  }

  /**
   * The texture_size step: loaded with default 12; the range check runs only when
   * the load succeeded, so a malformed number raises exactly one error.
   */
  function LoadTextureSize(m: MapSection, e: Entries, v: ValidationList): (r: Loaded<int>)
    ensures "texture_size" !in e ==>
      r.field == if m.textureSize.loaded then m.textureSize else Field(12, true)
    ensures "texture_size" in e && ParseInt(e["texture_size"]).Some? ==>
      r.field == Field(ParseInt(e["texture_size"]).value, true)
    ensures "texture_size" in e && ParseInt(e["texture_size"]).None? ==> r.field == m.textureSize
    ensures Extends(v, r.validation)
    ensures IsValidationValid(r.validation) <==>
      && IsValidationValid(v)
      && ("texture_size" in e ==> ParseInt(e["texture_size"]).Some?)
      && 1 <= r.field.value <= 32
  {
    var ts := LoadOr(m.textureSize, v, e, "texture_size", 12, ParseInt);
    var errs := TextureSizeErrors(ts.field.value);
    ValidAppend(ts.validation, errs);
    ErrorsValid(errs);
    ExtendsTrans(v, ts.validation, ts.validation + errs);
    Loaded(ts.field, if ts.ok then ts.validation + errs else ts.validation, ts.ok)
  }

  /**
   * The options of a map section after `world`, in source order: texture_dir,
   * rotations, rendermode, texture_size and the four flags, loaded on top of m.
   * The names, the world and the global flag are left as they are in m.
   */
  function LoadMapOptions(m: MapSection, e: Entries, configDir: string, env: Env,
                          v: ValidationList): (r: MapParse)
    ensures r.section.isGlobal == m.isGlobal && r.section.nameShort == m.nameShort
    ensures r.section.nameLong == m.nameLong && r.section.world == m.world
    ensures "texture_dir" in e ==> r.section.textureDir == Field(env.absolute(e["texture_dir"], configDir), true)
    ensures "texture_dir" !in e && env.foundTextureDir != "" ==> r.section.textureDir == Field(env.foundTextureDir, true)
    ensures "texture_dir" !in e && env.foundTextureDir == "" ==> r.section.textureDir == m.textureDir
    ensures r.section.rotations == LoadStringOr(m.rotations, e, "rotations", "top-left")
    ensures r.section.rotationsSet == m.rotationsSet + TokenRotations(Words(r.section.rotations.value))
    ensures r.section.rendermode == LoadStringOr(m.rendermode, e, "rendermode", "normal")
    ensures "texture_size" !in e ==>
      r.section.textureSize == if m.textureSize.loaded then m.textureSize else Field(12, true)
    ensures "texture_size" in e && ParseInt(e["texture_size"]).Some? ==>
      r.section.textureSize == Field(ParseInt(e["texture_size"]).value, true)
    ensures "texture_size" in e && ParseInt(e["texture_size"]).None? ==> r.section.textureSize == m.textureSize
    ensures FlagLoaded(m.renderUnknownBlocks, e, "render_unkown_blocks", false, r.section.renderUnknownBlocks)
    ensures FlagLoaded(m.renderLeavesTransparent, e, "render_leaves_transparent", true,
                       r.section.renderLeavesTransparent)
    ensures FlagLoaded(m.renderBiomes, e, "render_biomes", true, r.section.renderBiomes)
    ensures FlagLoaded(m.useImageTimestamps, e, "use_image_timestamps", true, r.section.useImageTimestamps)
    ensures Extends(v, r.validation)
    ensures r.valid <==> IsValidationValid(r.validation)
    ensures r.valid <==>
      && IsValidationValid(v)
      && ("texture_dir" in e ==> env.isDirectory(r.section.textureDir.value))
      && (m.isGlobal || r.section.textureDir.loaded)
      && KnownRotations(Words(r.section.rotations.value))
      && r.section.rendermode.value in RENDERMODES
      && ("texture_size" in e ==> ParseInt(e["texture_size"]).Some?)
      && 1 <= r.section.textureSize.value <= 32
      && FlagsParse(e)
  {
    var td := TextureDir(m.textureDir, m.isGlobal, e, configDir, env, v);
    var rot := LoadRotations(m, e, td.validation);
    var mode := LoadRendermode(m, e, rot.validation);
    var ts := LoadTextureSize(m, e, mode.validation);
    var flags := LoadFlags(m, e, ts.validation);
    assert Extends(v, flags.validation) by {
      ExtendsTrans(v, td.validation, rot.validation);
      ExtendsTrans(v, rot.validation, mode.validation);
      ExtendsTrans(v, mode.validation, ts.validation);
      ExtendsTrans(v, ts.validation, flags.validation);
    }
    var section := m.(textureDir := td.field, rotations := rot.field, rotationsSet := rot.set_,
                      rendermode := mode.field, textureSize := ts.field,
                      renderUnknownBlocks := flags.renderUnknownBlocks,
                      renderLeavesTransparent := flags.renderLeavesTransparent,
                      renderBiomes := flags.renderBiomes, useImageTimestamps := flags.useImageTimestamps);
    MapParse(section, flags.validation, IsValidationValid(flags.validation))
  }

  /**
   * MapSection::parse. The section's rotations are the template's rotation set
   * plus every rotation its `rotations` words name; the parse passes only if no
   * check raised an error, so a passing section has a known rendermode, a texture
   * size in 1..32, only known rotation names and, unless it is the global
   * template, a world and a texture directory.
   */
  function ParseMap(m: MapSection, sec: RawSection, configDir: string, env: Env,
                    v: ValidationList): (r: MapParse)
    ensures r.section.isGlobal == m.isGlobal
    ensures r.section.nameShort == sec.name
    ensures r.section.nameLong == if "name" in sec.entries then sec.entries["name"] else sec.name
    ensures r.section.world == LoadString(m.world, sec.entries, "world")
    ensures r.section.rotations == LoadStringOr(m.rotations, sec.entries, "rotations", "top-left")
    ensures r.section.rotationsSet == m.rotationsSet + TokenRotations(Words(r.section.rotations.value))
    ensures r.section.rendermode == LoadStringOr(m.rendermode, sec.entries, "rendermode", "normal")
    ensures "texture_size" !in sec.entries ==>
      r.section.textureSize == if m.textureSize.loaded then m.textureSize else Field(12, true)
    ensures "texture_size" in sec.entries && ParseInt(sec.entries["texture_size"]).Some? ==>
      r.section.textureSize == Field(ParseInt(sec.entries["texture_size"]).value, true)
    ensures "texture_size" in sec.entries && ParseInt(sec.entries["texture_size"]).None? ==>
      r.section.textureSize == m.textureSize
    ensures "texture_dir" in sec.entries ==>
      r.section.textureDir == Field(env.absolute(sec.entries["texture_dir"], configDir), true)
    ensures "texture_dir" !in sec.entries && env.foundTextureDir != "" ==>
      r.section.textureDir == Field(env.foundTextureDir, true)
    ensures "texture_dir" !in sec.entries && env.foundTextureDir == "" ==> r.section.textureDir == m.textureDir
    ensures FlagLoaded(m.renderUnknownBlocks, sec.entries, "render_unkown_blocks", false,
                       r.section.renderUnknownBlocks)
    ensures FlagLoaded(m.renderLeavesTransparent, sec.entries, "render_leaves_transparent", true,
                       r.section.renderLeavesTransparent)
    ensures FlagLoaded(m.renderBiomes, sec.entries, "render_biomes", true, r.section.renderBiomes)
    ensures FlagLoaded(m.useImageTimestamps, sec.entries, "use_image_timestamps", true,
                       r.section.useImageTimestamps)
    ensures Extends(v, r.validation)
    ensures r.valid <==> IsValidationValid(r.validation)
    ensures r.valid <==>
      && IsValidationValid(v)
      && ("texture_dir" in sec.entries ==> env.isDirectory(r.section.textureDir.value))
      && (m.isGlobal || r.section.textureDir.loaded)
      && KnownRotations(Words(r.section.rotations.value))
      && r.section.rendermode.value in RENDERMODES
      && ("texture_size" in sec.entries ==> ParseInt(sec.entries["texture_size"]).Some?)
      && 1 <= r.section.textureSize.value <= 32
      && FlagsParse(sec.entries)
      && (m.isGlobal || r.section.world.loaded)
  {
    var e := sec.entries;
    var nameLong := if "name" in e then e["name"] else sec.name;
    var world := LoadString(m.world, e, "world");
    var o := LoadMapOptions(m.(nameShort := sec.name, nameLong := nameLong, world := world), e, configDir, env, v);
    var v5 := if !m.isGlobal then Require(world, o.validation, WORLD_REQUIRED) else o.validation;
    ExtendsTrans(v, o.validation, v5);
    MapParse(o.section, v5, IsValidationValid(v5))
  }
}

=== FILE: text.dfy ===
/**
 * String helpers the configuration code relies on: whitespace splitting (the
 * `ss >> elem` loop over a string stream), util::trim, std::string::find,
 * decimal formatting (util::str) and parsing (util::as<int>, util::as<bool>).
 */
module Text {
  import opened Validation

  /** isspace in the "C" locale: space, \t, \n, \v, \f, \r. */
  predicate IsSpace(c: char) {
    c == ' ' || '\t' <= c <= '\r'
  }

  predicate NoSpace(w: string) {
    forall i :: 0 <= i < |w| ==> !IsSpace(w[i])
  }

  /** What `ss >> elem` can deliver: a non-empty run without whitespace. */
  predicate IsWord(w: string) {
    w != [] && NoSpace(w)
  }

  /** Length of the leading run of non-whitespace characters. */
  function WordLength(s: string): (n: nat)
    ensures n <= |s|
    ensures NoSpace(s[..n])
    ensures n < |s| ==> IsSpace(s[n])
  {
    if s == [] || IsSpace(s[0]) then 0
    else
      var m := WordLength(s[1..]);
      assert s[..m + 1] == [s[0]] + s[1..][..m];
      m + 1
  }

  /** The words a string stream extracts from s, in order. */
  function Words(s: string): (ws: seq<string>)
    ensures forall i :: 0 <= i < |ws| ==> IsWord(ws[i])
    decreases |s|
  {
    if s == [] then []
    else if IsSpace(s[0]) then Words(s[1..])
    else
      var n := WordLength(s);
      [s[..n]] + Words(s[n..])
  }

  /** Words joined by single spaces. */
  function Join(ws: seq<string>): string {
    if ws == [] then ""
    else if |ws| == 1 then ws[0]
    else ws[0] + " " + Join(ws[1..])
  }

  lemma {:induction false} WordLengthOfWord(w: string, rest: string)
    requires NoSpace(w)
    requires rest == [] || IsSpace(rest[0])
    ensures WordLength(w + rest) == |w|
  {
    if w != [] {
      assert (w + rest)[1..] == w[1..] + rest;
      WordLengthOfWord(w[1..], rest);
    } else {
      assert w + rest == rest;
    }
  }

  /** Splitting a space-joined list of words gives the words back. */
  lemma {:induction false} WordsOfJoin(ws: seq<string>)
    requires forall i :: 0 <= i < |ws| ==> IsWord(ws[i])
    ensures Words(Join(ws)) == ws
  {
    if |ws| == 1 {
      var w := ws[0];
      WordLengthOfWord(w, []);
      assert w + [] == w;
      assert w[|w|..] == [];
    } else if |ws| > 1 {
      var w, j := ws[0], Join(ws[1..]);
      var s := w + " " + j;
      assert Join(ws) == s;
      WordLengthOfWord(w, " " + j);
      assert s == w + (" " + j);
      assert s[..|w|] == w;
      assert s[|w|..] == " " + j;
      assert (" " + j)[1..] == j;
      WordsOfJoin(ws[1..]);
      assert Words(s) == [w] + Words(" " + j);
    }
  }

  /** Leading whitespace removed. */
  function TrimLeft(s: string): string {
    if s != [] && IsSpace(s[0]) then TrimLeft(s[1..]) else s
  }

  /** Trailing whitespace removed. */
  function TrimRight(s: string): string {
    if s != [] && IsSpace(s[|s| - 1]) then TrimRight(s[..|s| - 1]) else s
  }

  /** util::trim: whitespace removed at both ends. */
  function Trim(s: string): string {
    TrimRight(TrimLeft(s))
  }

  /** std::string::find for one character: the first position of c. */
  function IndexOf(s: string, c: char): (r: Option<nat>)
    ensures r.None? <==> c !in s
    ensures r.Some? ==> r.value < |s| && s[r.value] == c && c !in s[..r.value]
  {
    if s == [] then None
    else if s[0] == c then Some(0)
    else match IndexOf(s[1..], c)
      case None => None
      case Some(k) =>
        assert s[..k + 1] == [s[0]] + s[1..][..k];
        Some(k + 1)
  }

  predicate IsDigit(c: char) {
    '0' <= c <= '9'
  }

  predicate AllDigits(s: string) {
    forall i :: 0 <= i < |s| ==> IsDigit(s[i])
  }

  function DigitChar(d: nat): (c: char)
    requires d < 10
    ensures IsDigit(c)
  {
    ('0' as int + d) as char
  }

  function DigitValue(c: char): nat
    requires IsDigit(c)
  {
    c as int - '0' as int
  }

  /** Decimal digits of a natural number, without leading zeros. */
  function NatStr(n: nat): (s: string)
    ensures s != [] && AllDigits(s)
  {
    if n < 10 then [DigitChar(n)] else NatStr(n / 10) + [DigitChar(n % 10)]
  }

  /** util::str on an int: decimal, with a minus sign when negative. */
  function IntStr(n: int): string {
    if n < 0 then "-" + NatStr(-n) else NatStr(n)
  }

  /** The value of a run of decimal digits. */
  function DigitsValue(s: string): nat
    requires AllDigits(s)
  {
    if s == [] then 0 else 10 * DigitsValue(s[..|s| - 1]) + DigitValue(s[|s| - 1])
  }

  /** util::as<int>: an optional minus sign followed by one or more decimal digits. */
  function ParseInt(s: string): Option<int> {
    if |s| > 1 && s[0] == '-' && AllDigits(s[1..]) then Some(0 - DigitsValue(s[1..]) as int)
    else if s != [] && AllDigits(s) then Some(DigitsValue(s))
    else None
  }

  /** util::as<bool>: "true"/"1" and "false"/"0"; anything else is refused. */
  function ParseBool(s: string): Option<bool> {
    if s == "true" || s == "1" then Some(true)
    else if s == "false" || s == "0" then Some(false)
    else None
  }
}

=== FILE: validation.dfy ===
/**
 * Diagnostics (ValidationMessage, ValidationList, ValidationMap) and the
 * optional-with-provenance value holder Field<T> that every section uses.
 */
module Validation {

  datatype Option<T> = None | Some(value: T)

  /** Severity of one diagnostic. */
  datatype Kind = Error | Warning

  datatype Message = Message(kind: Kind, text: string)

  function ErrorMessage(text: string): Message { Message(Error, text) }

  function WarningMessage(text: string): Message { Message(Warning, text) }

  /** The diagnostics of one section, in the order they were raised. */
  type ValidationList = seq<Message>

  /** One (label, diagnostics) entry per file-level concern or section. */
  type ValidationMap = seq<(string, ValidationList)>

  /** isValidationValid: a list passes iff it holds no error. */
  predicate IsValidationValid(v: ValidationList) {
    forall i :: 0 <= i < |v| ==> v[i].kind != Error
  }

  /** A list made of errors only. */
  predicate AllErrors(v: ValidationList) {
    forall i :: 0 <= i < |v| ==> v[i].kind == Error
  }

  lemma ValidAppend(a: ValidationList, b: ValidationList)
    ensures IsValidationValid(a + b) <==> IsValidationValid(a) && IsValidationValid(b)
  {
    if IsValidationValid(a) && IsValidationValid(b) {
      forall i | 0 <= i < |a + b| ensures (a + b)[i].kind != Error {
        if i >= |a| { assert (a + b)[i] == b[i - |a|]; }
      }
    }
    if IsValidationValid(a + b) {
      forall i | 0 <= i < |a| ensures a[i].kind != Error {
        assert (a + b)[i] == a[i];
      }
      forall i | 0 <= i < |b| ensures b[i].kind != Error {
        assert (a + b)[|a| + i] == b[i];
      }
    }
  }

  /** w is v with messages appended. */
  predicate Extends(v: ValidationList, w: ValidationList) {
    v <= w
  }

  /** Appending one error makes any list fail. */
  lemma AppendError(v: ValidationList, m: Message)
    requires m.kind == Error
    ensures !IsValidationValid(v + [m])
  {
    assert (v + [m])[|v|].kind == Error;
  }

  /** A list of errors only passes iff it is empty. */
  lemma ErrorsValid(v: ValidationList)
    requires AllErrors(v)
    ensures IsValidationValid(v) <==> v == []
  {
    if v != [] {
      assert v[0].kind == Error;
    }
  }

  lemma ExtendsTrans(u: ValidationList, v: ValidationList, w: ValidationList)
    requires Extends(u, v) && Extends(v, w)
    ensures Extends(u, w)
  {
    assert w[..|u|] == w[..|v|][..|u|];
  }

  /** Field<T>: a value and whether it was ever loaded or set. */
  datatype Field<T> = Field(value: T, loaded: bool)

  /** The key/value entries of one configuration section. */
  type Entries = map<string, string>

  /** The outcome of Field<T>::load: the new field, the diagnostics and the returned flag. */
  datatype Loaded<T> = Loaded(field: Field<T>, validation: ValidationList, ok: bool)

  const INVALID_VALUE_FOR := "Invalid value for '"

  function InvalidValue(key: string, value: string): Message {
    ErrorMessage(INVALID_VALUE_FOR + key + "': '" + value + "'")
  }

  /**
   * Field<T>::load without a default: an absent key leaves the field as it is and
   * raises nothing; a present key that parses is loaded; one that does not parse
   * raises one error and leaves the field as it is.
   */
  function Load<T>(f: Field<T>, v: ValidationList, e: Entries, key: string,
                   parse: string -> Option<T>): Loaded<T>
  {
    if key !in e then Loaded(f, v, false)
    else match parse(e[key])
      case Some(x) => Loaded(Field(x, true), v, true)
      case None => Loaded(f, v + [InvalidValue(key, e[key])], false)
  }

  /** Field<T>::setDefault: only a field that was never loaded takes the default. */
  function SetDefault<T>(f: Field<T>, default: T): Field<T> {
    if f.loaded then f else Field(default, true)
  }

  /**
   * Field<T>::load with a default: an absent key gives the default to a field that
   * was not loaded (an inherited value is kept) and reports success.
   */
  function LoadOr<T>(f: Field<T>, v: ValidationList, e: Entries, key: string, default: T,
                     parse: string -> Option<T>): (r: Loaded<T>)
    ensures Extends(v, r.validation)
    ensures r.ok <==> key !in e || parse(e[key]).Some?
    ensures IsValidationValid(r.validation) <==> IsValidationValid(v) && r.ok
    ensures r.ok ==> r.field.loaded
  {
    AppendError(v, InvalidValue(key, if key in e then e[key] else ""));
    if key !in e then Loaded(SetDefault(f, default), v, true)
    else Load(f, v, e, key, parse)
  }

  /** A string field loads from a present key and never fails. */
  function LoadString(f: Field<string>, e: Entries, key: string): Field<string> {
    if key in e then Field(e[key], true) else f
  }

  /** A string field with a default always ends up loaded. */
  function LoadStringOr(f: Field<string>, e: Entries, key: string, default: string): Field<string> {
    if key in e then Field(e[key], true) else SetDefault(f, default)
  }

  /** Field<T>::setValue. */
  function SetValue<T>(f: Field<T>, x: T): Field<T> {
    Field(x, true)
  }

  /** Field<T>::require: one error iff the field was never loaded. */
  function Require<T>(f: Field<T>, v: ValidationList, text: string): (r: ValidationList)
    ensures Extends(v, r)
    ensures IsValidationValid(r) <==> IsValidationValid(v) && f.loaded
  {
    AppendError(v, ErrorMessage(text));
    if f.loaded then v else v + [ErrorMessage(text)]
  }
}
